=== FILE: README.md ===
# TelecomsXChange marketplace automation, modelled in Dafny

The repository is a set of stand-alone Python scripts that drive the
TelecomsXChange (TCXC) marketplace API. Most of them send one search or
history request, walk the records of the reply, and issue one follow-up
request per record that passes a filter or a price limit. A reply is
confirmed when it has HTTP 200, a JSON body and `status == "success"`.
The scripts differ in how much of that they check and in what they do
per record, as the list below says.

This project models six of those scripts as pure functions. Their inputs
are the script's configuration and the replies the server gives, already
decoded. The six scripts are:

- automate_low_qos_tt.py: once the call history is confirmed, it sends a trouble ticket for each failed call whose disconnect reason is one of five. Calls are deduplicated across runs through the `sent_messages.txt` file.
- automate_tt.py: once the call history is confirmed, it sends a ticket for each such call, with no deduplication. Its ticket text is worded slightly differently: spaces between sentences, " UTC " after the time, and every CDR field read with `.get`. It reports whether each send got HTTP 200.
- Automate_DID_Buying.py: on an HTTP 200 search, whose `status` it never checks, it tries to buy the DIDs whose monthly and setup fees are both below 2.00, in order, and stops at the first confirmed purchase.
- automate_carrier_relations.py: once the search is confirmed, it requests an interconnect for every rate whose `price_1` is below 0.22.
- automate_numbers_selling.py: no search. It lists each number of a configured list for sale from one template, then sends each buyer one message about the listings that went through.
- generate_ai_routing_strategy.py: once the search is confirmed, it orders the rates from cheapest to dearest and builds the numbered prompt for the completion service. It makes no per-record request.

Modules:

| module | file | contents |
|---|---|---|
| `Api` | api.dfy | replies, `Confirmed`, the three-way `Classify` (transport / malformed / application error), messages |
| `Text` | text.dfy | `str.strip()`, `str(n)` and its inverse, `"\n".join` and `split("\n")`, text-mode `readlines()` |
| `Thresholds` | thresholds.dfy | the `float(x.get(name, 0)) < limit` test |
| `Tickets` | tickets.dfy | call detail records, the five disconnect reasons, random ticket numbers, ticket subjects |
| `Dedup` | dedup.dfy | `sent_messages.txt` as the text it holds (`None` when the file does not exist), read back through `readlines()` |
| `Rates` | rates.dfy | market-view rate rows |
| `LowQosTickets`, `TroubleTickets`, `DidBuying`, `CarrierRelations`, `NumbersSelling`, `RoutingStrategy` | one file per script | the script itself |

Modelling conventions:

- A per-record loop is a function over the first `n` records. It returns a trace of the requests it issued. Each trace entry records the position `at` of the record it was issued for.
- The contracts pin the trace down exactly: positions ascend, each position passes the script's filter, and a companion lemma proves every passing position appears.
- The server's answers to per-record requests are a sequence aligned with the records. Answer `i` is used only if the request about record `i` is made.
- Randomness is a parameter: the `random.choice` draws for each record are given as alphabet indices.
- A field read with `.get` is an `Option`; a field read with `[...]` is a plain value.

## Model

| member | source | states |
|---|---|---|
| Api.Classify | automate_low_qos_tt.py:79-103 | a reply is accepted exactly when it is confirmed, and then yields its content; otherwise it is a transport error exactly for a non-200 status, malformed exactly for a 200 that does not decode, and an application error exactly for decoded JSON whose status is not "success" |
| Text.Strip | automate_low_qos_tt.py:38 | `line.strip()` is the slice of the line left once the whitespace at both ends is cut: only whitespace lies outside it, and none at its own ends |
| Text.StripFixesExactlyTrimmed | automate_low_qos_tt.py:38 | stripping changes a string if and only if it has whitespace at one of its ends |
| Text.StripIdempotent | automate_low_qos_tt.py:38 | stripping a stripped line changes nothing |
| Text.StripDropsNewline | automate_low_qos_tt.py:36-45 | a recorded line `key + "\n"`, once stripped, equals the stripped key |
| Text.Decimal | generate_ai_routing_strategy.py:97-104 | the route number prints as decimal digits, one digit exactly below 10, with no leading zero |
| Text.DecimalRoundTrip | generate_ai_routing_strategy.py:97-104 | reading the printed route number back gives the number |
| Text.DecimalInjective | generate_ai_routing_strategy.py:97-104 | different route numbers print differently |
| Text.SplitJoinLines | generate_ai_routing_strategy.py:102-105 | splitting the `"\n".join` of lines that hold no line break gives back the lines |
| Text.ReadLinesShape | automate_low_qos_tt.py:37 | every line `readlines()` returns holds no line break except a final "\n", and every line but the last has that "\n" |
| Text.ReadLinesAppend | automate_low_qos_tt.py:37-45 | text appended after text ending in "\n" is read back as lines of its own, after the old ones |
| Text.ReadLinesSingle | automate_low_qos_tt.py:37-45 | a text without line breaks, written with "\n", reads back as exactly that one line |
| Text.ReadLinesUnterminated | automate_low_qos_tt.py:37 | a file without any line break reads as one line, the whole text |
| Text.ReadLinesJoin | automate_low_qos_tt.py:37 | in a file without "\r", the lines read concatenate back to the file's text |
| Text.StripReadLine | automate_low_qos_tt.py:37-38 | a line as read, once stripped, holds no line break |
| Thresholds.BelowMonotonic | Automate_DID_Buying.py:57 | whatever passes a lower limit passes a higher one |
| Thresholds.MissingPassesPositiveLimit | Automate_DID_Buying.py:57 | a missing field (default 0) passes exactly the positive limits |
| Thresholds.PresentComparesValue | Automate_DID_Buying.py:57 | a present field passes exactly when its value is strictly below the limit |
| Tickets.QualifiesExactly | automate_tt.py:55-77 | a CDR qualifies exactly when its disconnect reason is present and is one of the five listed reasons; a missing reason never qualifies |
| Tickets.RandomTicketId | automate_low_qos_tt.py:27-29 | the generated ticket number has the requested length and uses only A-Z and 0-9 |
| Tickets.EveryValidIdIsDrawable | automate_low_qos_tt.py:27-29 | every string of A-Z and 0-9 of that length can be drawn, so the generator's range is exactly the valid ids |
| Tickets.TicketNumbers | automate_tt.py:84 | one ticket number per CDR, each 10 characters over A-Z and 0-9 |
| Tickets.SubjectReadsBack | automate_low_qos_tt.py:89 | the subject carries the ticket number at offsets 16-26 and the destination from offset 57, between the fixed wording |
| Dedup.KeyLayout | automate_low_qos_tt.py:33 | the key lists call id, destination and vendor in order, separated by "-" |
| Dedup.Record | automate_low_qos_tt.py:42-45 | recording creates the file if needed, keeps every character already written, appends the key and "\n", and so leaves the file ending in "\n" |
| Dedup.SingleLineLeaves | automate_low_qos_tt.py:36-45 | the record of a key without line breaks is found as the stripped key and as nothing else |
| Dedup.RecordAppendsLine | automate_low_qos_tt.py:36-45 | on a file that ends in "\n" (or is absent or empty), recording a key without line breaks adds exactly one line, the key and "\n", after the old lines |
| Dedup.AbsentLogHoldsNothing | automate_low_qos_tt.py:34-35 | when the file does not exist, no key counts as sent |
| Dedup.SeenKeyIsRecognisable | automate_low_qos_tt.py:36-39 | only a key without surrounding whitespace and without a line break can be found in the file |
| Dedup.UnrecognisableNeverSeen | automate_low_qos_tt.py:32-45 | a key padded with whitespace or holding a line break never counts as sent, whatever the file holds, even right after being recorded |
| Dedup.SeenAfterRecord | automate_low_qos_tt.py:32-45 | after recording onto a file that ends in "\n" (or is absent or empty), a key counts as sent exactly when it already did or a line the record wrote strips to it |
| Dedup.RecordThenSeen | automate_low_qos_tt.py:32-45 | a recognisable key recorded onto a file that ends in "\n" (or is absent or empty) counts as sent |
| Dedup.UnterminatedLineSwallowsKey | automate_low_qos_tt.py:32-45 | on a file whose only line lacks "\n", the record is written onto that line: neither the key nor the old line, found before, is found afterwards |
| Dedup.CarriageReturnEndKeepsKeys | automate_low_qos_tt.py:32-45 | a file ending in a lone "\r" is not terminated by "\n", yet a non-empty key recorded after it gets a line of its own, and both the old line and the key are found |
| LowQosTickets.CoveredBeforeExactly | automate_low_qos_tt.py:84-97 | a key is covered by the first n CDRs exactly when one of them qualifies and the record of its key leaves a line that is found as the given one |
| LowQosTickets.Pass | automate_low_qos_tt.py:84-97 | every ticket of the loop is for one of the CDRs already walked |
| LowQosTickets.PassAscending | automate_low_qos_tt.py:84-97 | tickets go out in CDR order |
| LowQosTickets.PassNumbers | automate_low_qos_tt.py:89 | each ticket carries the number drawn for its own CDR |
| LowQosTickets.PassAppendsKeys | automate_low_qos_tt.py:84-97 | the file only grows: the loop appends to its text one key and "\n" per ticket sent, in sending order, and nothing else |
| LowQosTickets.QuietPassKeepsLog | automate_low_qos_tt.py:84-97 | a loop that sends nothing leaves the file as it was; one that sends has created the file and leaves it ending in "\n" |
| LowQosTickets.PassKnows | automate_low_qos_tt.py:84-97 | from a file that ends in "\n" (or is absent or empty), after the loop a key counts as sent exactly when it did before or the record of a qualifying CDR walked so far leaves a line for it |
| LowQosTickets.KnowsStep | automate_low_qos_tt.py:86-97 | on a file that ends in "\n" (or is absent or empty), after one iteration a key is found exactly when it was before or the CDR qualifies and its record leaves a line for the key |
| LowQosTickets.StepSendsIffFresh | automate_low_qos_tt.py:86 | a CDR gets a ticket exactly when it qualifies and its key is in neither the original file nor an earlier qualifying CDR of the batch |
| LowQosTickets.SentIsFresh | automate_low_qos_tt.py:84-97 | every ticket is for a fresh CDR: one that qualifies, is not in the original file and was not covered earlier in the batch |
| LowQosTickets.FreshIsSent | automate_low_qos_tt.py:84-97 | every fresh CDR gets a ticket |
| LowQosTickets.PassSendsExactlyFresh | automate_low_qos_tt.py:84-97 | the tickets are for exactly the fresh CDRs |
| LowQosTickets.Run | automate_low_qos_tt.py:79-103 | no CDR is looked at unless the history reply is confirmed; a rejected reply reports the failure `Classify` gives |
| LowQosTickets.NothingFreshAfterPass | automate_low_qos_tt.py:84-97 | after a full loop from a file that ends in "\n" (or is absent or empty), no qualifying CDR with a recognisable key is fresh against the file it leaves |
| LowQosTickets.SecondPassSendsNothing | automate_low_qos_tt.py:84-97 | with recognisable keys and a starting file that ends in "\n" (or is absent or empty), rerunning on the same CDRs with the file the first run left sends nothing and leaves the file unchanged |
| LowQosTickets.OneTicketPerKey | automate_low_qos_tt.py:84-97 | within one run from a file that ends in "\n" (or is absent or empty), two tickets never share a key, unless that key is padded with whitespace or holds a line break |
| LowQosTickets.UnrecognisableKeyTicketedAgain | automate_low_qos_tt.py:86-97 | a qualifying CDR whose key is padded or holds a line break gets a ticket whatever the file holds, and each of two copies in one batch gets one |
| LowQosTickets.DuplicateCdrTicketedOnce | automate_low_qos_tt.py:84-97 | from a file that ends in "\n" (or is absent or empty), two copies of a qualifying CDR with a recognisable key yield one ticket |
| LowQosTickets.UnterminatedLogTicketsDuplicateTwice | automate_low_qos_tt.py:84-97 | from a file whose only line lacks "\n", the same two copies yield two tickets |
| LowQosTickets.Outbox | automate_low_qos_tt.py:87-94 | one message per ticket, in sending order, each to its CDR's vendor and describing that CDR, with a valid ticket number at offsets 16-26 of the subject and the destination from offset 57 |
| LowQosTickets.OutboxReadsBack | automate_low_qos_tt.py:87-94 | each message goes to its CDR's vendor, its subject carries a valid ticket number and the destination at fixed offsets, and its text describes that CDR |
| TroubleTickets.Notify | automate_tt.py:73-108 | tickets go out in CDR order, only for qualifying CDRs, each with its CDR's number; a send is reported delivered exactly when its status is 200 |
| TroubleTickets.QualifyingIsNotified | automate_tt.py:73-77 | every qualifying CDR gets a ticket |
| TroubleTickets.NotifyCountsQualifying | automate_tt.py:73-77 | the number of tickets equals the number of qualifying CDRs |
| TroubleTickets.RepeatedCdrTicketedTwice | automate_tt.py:73-77 | with no deduplication, a qualifying CDR listed twice gets two tickets |
| TroubleTickets.MessageReadsBack | automate_tt.py:87-97 | each message goes to `str(i_vendor)` of its CDR under a subject carrying its ticket number and the destination, with that CDR's text |
| TroubleTickets.Run | automate_tt.py:67-114 | no CDR is looked at unless the history reply is confirmed; a rejected reply reports the failure `Classify` gives |
| DidBuying.AffordableExactly | Automate_DID_Buying.py:57 | a DID is affordable exactly when both fees are strictly below 2.00; a fee of exactly 2.00 is refused, and missing fees count as 0 |
| DidBuying.OrderRoutesToNumber | Automate_DID_Buying.py:60-65 | the SIP and SMPP routes of the order both carry the DID's number between the fixed scheme and host parts |
| DidBuying.Scan | Automate_DID_Buying.py:55-79 | purchases are attempted in list order, and only for affordable DIDs |
| DidBuying.EarlierAttemptsTurnedDown | Automate_DID_Buying.py:70-75 | every attempt but the last got a reply that decoded and was not a confirmation |
| DidBuying.StopIsLastAttempt | Automate_DID_Buying.py:70-75 | the loop stops only on a confirmed purchase or an undecodable reply, and that is the last DID requested |
| DidBuying.NoneBoughtExactly | Automate_DID_Buying.py:78-79 | "Failed to purchase any number" is logged exactly when every affordable DID was tried and turned down, including an empty list |
| DidBuying.BoughtExactly | Automate_DID_Buying.py:55-73 | the DID bought is exactly the first affordable one whose purchase is confirmed, provided every affordable DID before it was turned down |
| DidBuying.AffordableIsAttempted | Automate_DID_Buying.py:55-68 | every affordable DID is requested unless the loop stopped before reaching it |
| DidBuying.Buy | Automate_DID_Buying.py:53-54 | a non-200 search ends the script with nothing bought; a 200 search that does not decode crashes; otherwise the `dids` list, possibly absent, is scanned |
| DidBuying.SearchStatusIgnored | Automate_DID_Buying.py:53-54 | a search whose status is an error is still scanned, and a reply without `dids` ends with nothing bought |
| DidBuying.Orders | Automate_DID_Buying.py:59-68 | one purchase request per attempted DID, in order, each buying that DID for the billing account, with its SIP and SMPP routes wrapping that DID's number in the fixed scheme prefix and host-and-port suffix |
| CarrierRelations.CheapExactly | automate_carrier_relations.py:68-73 | the 0.22 limit is strict, and a rate without a price always qualifies |
| CarrierRelations.CheapIsBelow | automate_carrier_relations.py:68 | the price test is the shared policy: `price_1`, 0 when missing, strictly below the limit |
| CarrierRelations.Provision | automate_carrier_relations.py:67-107 | interconnects are requested in rate order, only for cheap rates, and each reply is classified on its own |
| CarrierRelations.CheapIsAttempted | automate_carrier_relations.py:67-73 | every cheap rate gets an interconnect request |
| CarrierRelations.AttemptsIgnoreReplies | automate_carrier_relations.py:67-109 | no early exit: which rates get requests does not depend on any reply |
| CarrierRelations.RequestsAreCheapRates | automate_carrier_relations.py:68-87 | the interconnect forms sent are exactly those for the cheap rates, in rate order, each with add=1, agree=yes, the account and `str(i_connection)`, whatever the replies |
| CarrierRelations.Run | automate_carrier_relations.py:58-115 | no rate is looked at unless the search is confirmed; a rejected search reports the failure `Classify` gives |
| NumbersSelling.ListingFor | automate_numbers_selling.py:36-49 | the form for a number is the template with only the number changed |
| NumbersSelling.ListingRequests | automate_numbers_selling.py:31-52 | one listing request per configured number, in list order, each carrying that number and agreeing with the template in every other field |
| NumbersSelling.Accumulate | automate_numbers_selling.py:55-61 | the kept listings are in list order, and each was confirmed with a template not "blocked" |
| NumbersSelling.KeptIsAccumulated | automate_numbers_selling.py:55-61 | every confirmed listing with a template that is not blocked is kept |
| NumbersSelling.BlockedKeepsNothing | automate_numbers_selling.py:59-61 | a blocked template keeps nothing, whatever the service answers |
| NumbersSelling.DidMessages | automate_numbers_selling.py:59-61 | `did_messages` holds one form per kept listing, in order, each carrying its kept number and agreeing with the template in every other field |
| NumbersSelling.BlocksAppend | automate_numbers_selling.py:78-79 | each listing contributes its own detail block to the message, in place |
| NumbersSelling.NoticeLayout | automate_numbers_selling.py:77-86 | each buyer's message goes to `i_customer` under the fixed subject; it opens "Dear <login>," with the fixed introduction, then the listing blocks in order, then "Best Regards," |
| NumbersSelling.Acknowledge | automate_numbers_selling.py:90-97 | a message reply (a 200 one must decode) is accepted exactly when confirmed, and then yields its `i_message`; otherwise it is the failure `Classify` reports, a transport or application error and never a malformed body |
| NumbersSelling.Notify | automate_numbers_selling.py:68-97 | the buyers list is fetched exactly when some listing was kept; a non-200 list stops there; otherwise there is one message per buyer, in order, each reply taken on its own (a 200 one must decode), a confirmation yielding its `i_message` and a rejection never a malformed body |
| NumbersSelling.Mail | automate_numbers_selling.py:75-88 | one message per buyer, in buyer order, each to that buyer's `i_customer` under the fixed subject, greeting that buyer's login and carrying the blocks of all kept listings before the sign-off |
| NumbersSelling.Run | automate_numbers_selling.py:25-97 | the listing loop decides the kept listings, and no buyer is contacted when none was kept |
| RoutingStrategy.SortByPrice | generate_ai_routing_strategy.py:93 | the strategy is a permutation of the rates |
| RoutingStrategy.SortSorted | generate_ai_routing_strategy.py:93 | the strategy runs from the lowest price to the highest |
| RoutingStrategy.SortStable | generate_ai_routing_strategy.py:93 | rates of equal price keep their server order, since `sorted` is stable |
| RoutingStrategy.RouteLineNumber | generate_ai_routing_strategy.py:103 | each summary line starts "Route ", then its number in decimal, which reads back, then ":" |
| RoutingStrategy.RouteLines | generate_ai_routing_strategy.py:102-105 | one summary line per route, in the strategy's order, line k opening with "Route ", then k+1 in decimal, which reads back, then ":" |
| RoutingStrategy.PromptListsRoutes | generate_ai_routing_strategy.py:102-108 | the prompt is the fixed preamble followed by the summary, and the summary splits at its line breaks into the route lines, provided no quoted field holds a line break |
| RoutingStrategy.Run | generate_ai_routing_strategy.py:44-135 | a missing OpenAI key or TCXC credential ends the script first; then an unconfirmed search, an empty or absent `rates`, or a strategy with its prompt, each in exactly its own case |
| RoutingStrategy.GuardsPrecedeSearch | generate_ai_routing_strategy.py:44-55 | with a credential missing, the outcome does not depend on the search |
| RoutingStrategy.SuggestedStrategy | generate_ai_routing_strategy.py:91-108 | every produced strategy lists each rate of the search exactly once, cheapest first, with ties in server order |

Behaviour worth knowing, as the code is written:

- The low-QoS dedup compares `line.strip()` with a key that is not stripped, and reads the file back with `readlines()`, which ends a line at every "\n" or "\r". A key with surrounding whitespace, or with a line break inside, is therefore never recognised, and its CDR is ticketed on every run and for each copy in a batch (`UnrecognisableNeverSeen`, `UnrecognisableKeyTicketedAgain`).
- The record is appended to the file as it stands. If the file's last character is neither "\n" nor "\r" (a line written by hand, say), the next key is written onto its last line: neither is found afterwards, and that key is ticketed again (`UnterminatedLineSwallowsKey`, `UnterminatedLogTicketsDuplicateTwice`). A file ending in a lone "\r" loses nothing, because `readlines()` already ends the line there (`CarriageReturnEndKeepsKeys`). Every record the script writes ends in "\n", so only a starting file can be in either state.
- With recognisable keys and a starting file that ends in "\n" (or is absent or empty), a second run sends nothing (`SecondPassSendsNothing`).
- The low-QoS ticket text runs sentences together (".Our monitoring", "delivery.We appreciate") because its f-string pieces meet without spaces. The model keeps that wording.
- In automate_carrier_relations.py the comment says 0.19 but the code compares with 0.22. The model follows the code.
- Automate_DID_Buying.py never checks the search reply's `status`, and an absent `dids` list counts as empty.

## Left out

- HTTP transport, digest authentication, headers and URLs: replies are inputs, and the requests are returned as data.
- JSON decoding: a body is either undecodable or already decoded.
- Float parsing: fees and prices are given as parsed reals. An unparseable `price_1` or fee raises `ValueError` mid-loop; that abort is not modelled.
- The time window of the call-history request (`datetime.utcnow()`) and every logging or print call.
- The completion request and its answer (generate_ai_routing_strategy.py:111-125). The model stops at the prompt.
- Concurrent runs and I/O errors on `sent_messages.txt`: the file is a value passed in and returned.
- Automate_Route_Testing.py is not valid Python and is not part of this model. seller_payhistory_ai_summary.py (a float sum plus a completion request) is not part of this model either.
- LowQosTickets.Run: the history content is a list of CDRs. A confirmed reply without `cdrs`, which raises `TypeError` in the source, is not modelled. CDR fields read with `[...]` are taken as present.
- TroubleTickets.Run: a confirmed reply without `cdrs` is not modelled. The CDR fields the text quotes through `.get` are taken as present strings; only the disconnect reason may be missing.
- CarrierRelations.Run: requires a confirmed search to carry `rates`. Without it the source raises an uncaught `TypeError`.
- NumbersSelling.Run: requires every reply read with `.json()` on HTTP 200 to decode, the buyers reply to carry `buyers`, and every confirmed message reply to carry `i_message`. Otherwise the source raises an uncaught exception and the buyers after that point get no message.
- NumbersSelling.Notify: requires every HTTP 200 message reply to decode (automate_numbers_selling.py:91) and every confirmed one to carry `i_message`, which the source reads with `[...]` (automate_numbers_selling.py:93); the crash that ends the loop in either case is not modelled.
- NumbersSelling.Acknowledge: requires the same of its one reply, for the same reason; it is never given a reply the script would crash on.
- RoutingStrategy.SortByPrice: the sort key is the parsed price. Python's failure when `float` cannot parse a price is not modelled.
- LowQosTickets.SecondPassSendsNothing: stated only for batches whose qualifying keys are recognisable and for a starting file that ends in "\n" (or is absent or empty). `UnrecognisableKeyTicketedAgain` and `UnterminatedLogTicketsDuplicateTwice` show the other cases.
- Dedup.SeenAfterRecord: stated for a file that is absent, empty or ends in "\n". A file whose last character is neither "\n" nor "\r" has the record written onto its last line, as `UnterminatedLineSwallowsKey` shows. A file ending in "\r" is outside the lemma too, yet loses no non-empty key, as `CarriageReturnEndKeepsKeys` shows.
- Dedup.RecordThenSeen: stated for a recognisable key and a file that is absent, empty or ends in "\n"; `UnrecognisableNeverSeen` and `UnterminatedLineSwallowsKey` show the other cases.
- LowQosTickets.PassKnows: stated for a starting file that is absent, empty or ends in "\n". Every record the loop writes keeps the file that way, so only the first record onto an unterminated file is outside it; `UnterminatedLogTicketsDuplicateTwice` shows that case.
- LowQosTickets.StepSendsIffFresh: stated for a starting file that is absent, empty or ends in "\n". Every record the loop writes keeps the file that way, so only the first record onto an unterminated file is outside it; `UnterminatedLogTicketsDuplicateTwice` shows that case.
- LowQosTickets.SentIsFresh: stated for a starting file that is absent, empty or ends in "\n". Every record the loop writes keeps the file that way, so only the first record onto an unterminated file is outside it; `UnterminatedLogTicketsDuplicateTwice` shows that case.
- LowQosTickets.FreshIsSent: stated for a starting file that is absent, empty or ends in "\n". Every record the loop writes keeps the file that way, so only the first record onto an unterminated file is outside it; `UnterminatedLogTicketsDuplicateTwice` shows that case.
- LowQosTickets.PassSendsExactlyFresh: stated for a starting file that is absent, empty or ends in "\n". Every record the loop writes keeps the file that way, so only the first record onto an unterminated file is outside it; `UnterminatedLogTicketsDuplicateTwice` shows that case.
- LowQosTickets.NothingFreshAfterPass: stated for a starting file that is absent, empty or ends in "\n", and for a CDR with a recognisable key; the other cases are those of `UnterminatedLogTicketsDuplicateTwice` and `UnrecognisableKeyTicketedAgain`.
- LowQosTickets.OneTicketPerKey: stated for a starting file that is absent, empty or ends in "\n"; `UnterminatedLogTicketsDuplicateTwice` shows two tickets for one recognisable key otherwise.
- LowQosTickets.DuplicateCdrTicketedOnce: stated for a recognisable key and a starting file that is absent, empty or ends in "\n"; `UnrecognisableKeyTicketedAgain` and `UnterminatedLogTicketsDuplicateTwice` show the other cases.
- Dedup: the file is read as text on a POSIX system, where writing "\n" puts "\n" in the file. The character encoding of the file is not modelled: its text is a sequence of characters.

=== FILE: api.dfy ===
/** The marketplace request/response contract shared by every script.

A server reply is an input value: its HTTP status code and its body, which
either failed to decode as JSON or decoded to an object carrying an optional
`status` member next to the script-specific content.
 */
module Api {

  datatype Option<+T> = None | Some(value: T) {
    function GetOr(default: T): T {
      match this
      case Some(v) => v
      case None => default
    }
  }

  /** A reply body: not JSON at all, or a JSON object whose `status` member
      may be absent and whose other members the script reads as `content`. */
  datatype Body<+T> = Undecodable | Json(status: Option<string>, content: T)

  datatype Reply<+T> = Reply(code: int, body: Body<T>)

  const HTTP_OK: int := 200
  const SUCCESS: string := "success"

  /** The check every script applies before trusting a reply: HTTP 200,
      a body that decodes, and `status == "success"`. */
  predicate Confirmed<T>(r: Reply<T>) {
    r.code == HTTP_OK && r.body.Json? && r.body.status == Some(SUCCESS)
  }

  /** Why a reply was not accepted. */
  datatype Failure =
    | TransportError(code: int)          // non-200, the body is never decoded
    | MalformedResponse                  // 200 but the body is not JSON
    | ApplicationError(status: Option<string>)  // JSON whose status is not "success"

  datatype Outcome<+T> = Accepted(content: T) | Rejected(failure: Failure)

  /** The three-way branch the scripts write as `if status_code == 200: try:
      json() ... if status == 'success' ... except ValueError`. */
  function Classify<T>(r: Reply<T>): (o: Outcome<T>)
    ensures o.Accepted? <==> Confirmed(r)
    ensures o.Accepted? ==> o.content == r.body.content
    ensures o == Rejected(TransportError(r.code)) <==> r.code != HTTP_OK
    ensures o == Rejected(MalformedResponse) <==> r.code == HTTP_OK && r.body.Undecodable?
    ensures o.Rejected? && o.failure.ApplicationError? <==>
              r.code == HTTP_OK && r.body.Json? && r.body.status != Some(SUCCESS)
  {
    if r.code != HTTP_OK then Rejected(TransportError(r.code))
    else match r.body
      case Undecodable => Rejected(MalformedResponse)
      case Json(status, content) =>
        if status == Some(SUCCESS) then Accepted(content) else Rejected(ApplicationError(status))
  }

  /** A message through the marketplace's message service: the `id` of the
      account it goes to, and the `subject` and `message` of the request. */
  datatype Message = Message(id: string, subject: string, text: string)

  /** Python's `str(x)` of a value read with `.get`: a missing value prints as "None". */
  function Render(x: Option<string>): (s: string)
    ensures x.Some? ==> s == x.value
    ensures x.None? ==> s == "None"
  {
    x.GetOr("None")
  }
}

=== FILE: carrier_relations.dfy ===
/** automate_carrier_relations.py: search the market view, then request an
    interconnect with every rate whose `price_1` is below 0.22, classifying
    each reply and carrying on whatever it says. */
module CarrierRelations {
  import opened Api
  import opened Rates
  import opened Thresholds

  const PRICE_LIMIT: real := 0.22

  /** `price_1 < 0.22`. */
  predicate Cheap(r: Rate) {
    Price(r) < PRICE_LIMIT
  }

  /** The price as the shared threshold policy reads it. */
  function PriceField(r: Rate): Option<real> {
    if r.price1.Some? then Some(r.price1.value.value) else None
  }

  /** The price test is the shared `.get(name, 0) < limit` policy. */
  lemma CheapIsBelow(r: Rate)
    ensures Cheap(r) <==> Below(PriceField(r), PRICE_LIMIT)
  {
  }

  /** The limit is strict, and a rate without a price always qualifies. */
  lemma CheapExactly(r: Rate)
    ensures r.price1.None? ==> Cheap(r)
    ensures r.price1.Some? ==> (Cheap(r) <==> r.price1.value.value < 0.22)
    ensures Price(r) == 0.22 ==> !Cheap(r)
  {
  }

  /** The form the interconnect request sends. */
  datatype Request = Request(add: string, iAccount: string, agree: string, id: string)

  /** The request for one rate: add=1, agree=yes and `str(i_connection)`,
      which is "None" for a rate without one. */
  function RequestFor(r: Rate, account: string): (q: Request)
    ensures q.add == "1" && q.agree == "yes" && q.iAccount == account
    ensures r.iConnection.Some? ==> q.id == r.iConnection.value
    ensures r.iConnection.None? ==> q.id == "None"
  {
    Request("1", account, "yes", Render(r.iConnection))
  }

  /** An interconnect requested for the rate at position `at`, and how its
      reply was classified: success only for HTTP 200 with status "success". */
  datatype Attempt = Attempt(at: nat, outcome: Outcome<()>)

  /** The loop over the first n rates. `replies[i]` is what the interconnect
      service answers for rate i, used only if that request is made. */
  function Provision(rates: seq<Rate>, replies: seq<Reply<()>>, n: nat): (r: seq<Attempt>)
    requires n <= |rates| == |replies|
    ensures |r| <= n
    ensures forall k, l :: 0 <= k < l < |r| ==> r[k].at < r[l].at
    ensures forall k :: 0 <= k < |r| ==>
              && r[k].at < n
              && Cheap(rates[r[k].at])
              && r[k].outcome == Classify(replies[r[k].at])
  {
    if n == 0 then []
    else
      var p := Provision(rates, replies, n - 1);
      if Cheap(rates[n - 1]) then p + [Attempt(n - 1, Classify(replies[n - 1]))] else p
  }

  /** Every cheap rate among the first n gets an interconnect request. */
  lemma {:induction false} CheapIsAttempted(rates: seq<Rate>, replies: seq<Reply<()>>, n: nat, i: nat)
    requires i < n <= |rates| == |replies|
    requires Cheap(rates[i])
    ensures exists k :: 0 <= k < |Provision(rates, replies, n)| && Provision(rates, replies, n)[k].at == i
  {
    var p := Provision(rates, replies, n - 1);
    var r := Provision(rates, replies, n);
    if i == n - 1 {
      assert r[|p|].at == i;
    } else {
      CheapIsAttempted(rates, replies, n - 1, i);
      var k :| 0 <= k < |p| && p[k].at == i;
      assert r[k] == p[k];
    }
  }

  /** No early exit: which rates get a request does not depend on what the
      service answers to earlier ones. */
  lemma {:induction false} AttemptsIgnoreReplies(rates: seq<Rate>, a: seq<Reply<()>>, b: seq<Reply<()>>, n: nat)
    requires n <= |rates| == |a| == |b|
    ensures |Provision(rates, a, n)| == |Provision(rates, b, n)|
    ensures forall k :: 0 <= k < |Provision(rates, a, n)| ==> Provision(rates, a, n)[k].at == Provision(rates, b, n)[k].at
  {
    if n > 0 {
      AttemptsIgnoreReplies(rates, a, b, n - 1);
    }
  }

  /** The interconnect requests sent, in order. */
  function Requests(rates: seq<Rate>, attempts: seq<Attempt>, account: string): (q: seq<Request>)
    requires forall k :: 0 <= k < |attempts| ==> attempts[k].at < |rates|
    ensures |q| == |attempts|
    ensures forall k :: 0 <= k < |q| ==> q[k] == RequestFor(rates[attempts[k].at], account)
  {
    seq(|attempts|, k requires 0 <= k < |attempts| => RequestFor(rates[attempts[k].at], account))
  }

  /** The interconnect requests for the cheap rates among the first n, in
      rate order: a reference that looks at the rates alone. */
  function CheapRequests(rates: seq<Rate>, account: string, n: nat): seq<Request>
    requires n <= |rates|
  {
    if n == 0 then []
    else
      CheapRequests(rates, account, n - 1)
      + (if Cheap(rates[n - 1]) then [RequestFor(rates[n - 1], account)] else [])
  }

  /** The loop sends exactly the requests for the cheap rates, in order,
      whatever the interconnect service answers. */
  lemma {:induction false} RequestsAreCheapRates(rates: seq<Rate>, replies: seq<Reply<()>>, account: string, n: nat)
    requires n <= |rates| == |replies|
    ensures Requests(rates, Provision(rates, replies, n), account) == CheapRequests(rates, account, n)
  {
    if n > 0 {
      RequestsAreCheapRates(rates, replies, account, n - 1);
      var p := Provision(rates, replies, n - 1);
      if Cheap(rates[n - 1]) {
        var a := Attempt(n - 1, Classify(replies[n - 1]));
        assert Provision(rates, replies, n) == p + [a];
        assert Requests(rates, p + [a], account)
            == Requests(rates, p, account) + [RequestFor(rates[n - 1], account)];
      } else {
        assert Provision(rates, replies, n) == p;
      }
    }
  }

  /** The script. `search.body.content` is the `rates` member; a confirmed
      search must carry it, since the loop iterates over it. No rate is
      looked at unless the search reply is confirmed. */
  function Run(search: Reply<Option<seq<Rate>>>, replies: seq<Reply<()>>): (r: Outcome<seq<Attempt>>)
    requires Confirmed(search) ==> search.body.content.Some? && |replies| == |search.body.content.value|
    ensures r.Accepted? <==> Confirmed(search)
    ensures r.Accepted? ==>
              r.content == Provision(search.body.content.value, replies, |search.body.content.value|)
    ensures r.Rejected? ==> r.failure == Classify(search).failure
  {
    match Classify(search)
    case Rejected(f) => Rejected(f)
    case Accepted(rates) => Accepted(Provision(rates.value, replies, |rates.value|))
  }
}

=== FILE: dedup.dfy ===
/** The file-backed record of tickets already sent (`sent_messages.txt`),
    seen as the text the file holds. `None` stands for a file that does not
    exist yet. The file is read back through `readlines()`, so what a check
    finds depends on where the line breaks fall, not on how keys were
    written. */
module Dedup {
  import opened Api
  import opened Text

  type Log = Option<string>

  /** The composite key `f'{call_id}-{destination_number}-{vendor_id}'`. */
  function Key(callId: string, destination: string, vendor: string): string {
    callId + "-" + destination + "-" + vendor
  }

  /** The key lays out call id, destination and vendor in that order, each
      followed by a single "-" except the last. */
  lemma KeyLayout(callId: string, destination: string, vendor: string)
    ensures var k := Key(callId, destination, vendor);
            && |k| == |callId| + |destination| + |vendor| + 2
            && k[..|callId|] == callId && k[|callId|] == '-'
            && k[|callId| + 1..|callId| + 1 + |destination|] == destination
            && k[|callId| + 1 + |destination|] == '-'
            && k[|callId| + 2 + |destination|..] == vendor
  {
  }

  /** The file's text; a file that does not exist reads as nothing. */
  function Content(log: Log): string {
    log.GetOr("")
  }

  /** Some line, stripped, equals the key exactly. */
  predicate Holds(lines: seq<string>, key: string) {
    exists i :: 0 <= i < |lines| && Strip(lines[i]) == key
  }

  lemma HoldsAppend(a: seq<string>, b: seq<string>, key: string)
    ensures Holds(a + b, key) <==> Holds(a, key) || Holds(b, key)
  {
    if Holds(a, key) {
      var i :| 0 <= i < |a| && Strip(a[i]) == key;
      assert (a + b)[i] == a[i];
    }
    if Holds(b, key) {
      var i :| 0 <= i < |b| && Strip(b[i]) == key;
      assert (a + b)[|a| + i] == b[i];
    }
    if Holds(a + b, key) {
      var i :| 0 <= i < |a + b| && Strip((a + b)[i]) == key;
      if i < |a| {
        assert (a + b)[i] == a[i];
      } else {
        assert (a + b)[i] == b[i - |a|];
      }
    }
  }

  /** `check_if_message_sent`: the file exists and one of the lines
      `readlines()` returns, stripped, equals the key. */
  predicate WasSent(log: Log, key: string) {
    log.Some? && Holds(ReadLines(log.value), key)
  }

  /** `record_message_sent`: append the key and "\n" to the file, creating
      it when it is absent. Nothing already written changes. */
  function Record(log: Log, key: string): (r: Log)
    ensures r.Some?
    ensures |Content(r)| == |Content(log)| + |key| + 1
    ensures Content(r)[..|Content(log)|] == Content(log)
    ensures Content(r)[|Content(log)|..] == key + "\n"
    ensures EndsLine(Content(r))
  {
    Some(Content(log) + key + "\n")
  }

  /** The file is absent, empty, or ends in "\n": whatever is appended next
      starts a line of its own. A file ending in a lone "\r" is not
      `Terminated`, though `readlines()` ends its last line there too
      (`CarriageReturnEndKeepsKeys`). */
  predicate Terminated(log: Log) {
    EndsLine(Content(log))
  }

  /** A key that a check can find: no whitespace at either end, no line
      break inside. Every other key is never found (`UnrecognisableNeverSeen`). */
  predicate Recognisable(key: string) {
    Trimmed(key) && NoLineBreak(key)
  }

  /** Recording `recorded` writes a line that a check for `key` finds, read
      on its own. */
  predicate Leaves(recorded: string, key: string) {
    Holds(ReadLines(recorded + "\n"), key)
  }

  /** A key without line breaks writes exactly one line, which a check finds
      as its stripped form and as nothing else. */
  lemma SingleLineLeaves(recorded: string, key: string)
    requires NoLineBreak(recorded)
    ensures Leaves(recorded, key) <==> Strip(recorded) == key
  {
    ReadLinesSingle(recorded);
    StripDropsNewline(recorded);
    assert Strip([recorded + "\n"][0]) == Strip(recorded);
  }

  /** Appended to a terminated file, a key that has no line break becomes
      exactly one new line, its text and "\n", after the old ones. */
  lemma RecordAppendsLine(log: Log, key: string)
    requires Terminated(log) && NoLineBreak(key)
    ensures ReadLines(Content(Record(log, key))) == ReadLines(Content(log)) + [key + "\n"]
  {
    var s := Content(log);
    assert Content(Record(log, key)) == s + (key + "\n");
    ReadLinesAppend(s, key + "\n");
    ReadLinesSingle(key);
  }

  /** With no file, nothing has been sent. */
  lemma AbsentLogHoldsNothing(key: string)
    ensures !WasSent(None, key)
  {
  }

  /** Only a recognisable key is ever found: a stripped line has no
      whitespace at its ends and, since lines are split at every break,
      no line break inside. */
  lemma SeenKeyIsRecognisable(log: Log, key: string)
    requires WasSent(log, key)
    ensures Recognisable(key)
  {
    var lines := ReadLines(log.value);
    ReadLinesShape(log.value);
    var i :| 0 <= i < |lines| && Strip(lines[i]) == key;
    assert ReadLine(lines[i]);
    StripReadLine(lines[i]);
  }

  /** A key padded with whitespace, or holding a line break, is never found,
      whatever the file holds, and so also not right after it is recorded. */
  lemma UnrecognisableNeverSeen(log: Log, key: string)
    requires !Recognisable(key)
    ensures !WasSent(log, key)
    ensures !WasSent(Record(log, key), key)
  {
    if WasSent(log, key) {
      SeenKeyIsRecognisable(log, key);
    }
    if WasSent(Record(log, key), key) {
      SeenKeyIsRecognisable(Record(log, key), key);
    }
  }

  /** After recording onto a terminated file, a key is found exactly when
      it was found before or the recorded text leaves a line for it. */
  lemma SeenAfterRecord(log: Log, recorded: string, key: string)
    requires Terminated(log)
    ensures WasSent(Record(log, recorded), key) <==> WasSent(log, key) || Leaves(recorded, key)
  {
    var s := Content(log);
    assert Content(Record(log, recorded)) == s + (recorded + "\n");
    ReadLinesAppend(s, recorded + "\n");
    HoldsAppend(ReadLines(s), ReadLines(recorded + "\n"), key);
  }

  /** `record` then `check` on the same key answers true, for a
      recognisable key and a terminated file. */
  lemma RecordThenSeen(log: Log, key: string)
    requires Terminated(log) && Recognisable(key)
    ensures WasSent(Record(log, key), key)
  {
    SeenAfterRecord(log, key, key);
    SingleLineLeaves(key, key);
    StripFixesExactlyTrimmed(key);
  }

  /** A file whose last line has no "\n" swallows the next record: the key
      is written onto that line, so neither the key nor the old line is
      found afterwards, though the old line was found before. */
  lemma UnterminatedLineSwallowsKey(last: string, key: string)
    requires |last| > 0 && Recognisable(last)
    requires |key| > 0 && Recognisable(key)
    ensures WasSent(Some(last), last)
    ensures ReadLines(Content(Record(Some(last), key))) == [last + key + "\n"]
    ensures !WasSent(Record(Some(last), key), key)
    ensures !WasSent(Record(Some(last), key), last)
  {
    ReadLinesUnterminated(last);
    StripFixesExactlyTrimmed(last);
    assert Strip([last][0]) == last;
    var joined := last + key;
    assert NoLineBreak(joined) by {
      forall i | 0 <= i < |joined|
        ensures !IsLineBreak(joined[i])
      {
        if i >= |last| {
          assert joined[i] == key[i - |last|];
        }
      }
    }
    assert Trimmed(joined) by {
      assert joined[0] == last[0];
      assert joined[|joined| - 1] == key[|key| - 1];
    }
    assert Content(Record(Some(last), key)) == joined + "\n";
    ReadLinesSingle(joined);
    StripDropsNewline(joined);
    StripFixesExactlyTrimmed(joined);
    assert Strip([joined + "\n"][0]) == joined;
  }

  /** A file whose last character is a lone "\r" lies outside `Terminated`,
      yet loses nothing: `readlines()` has already ended its last line, so a
      non-empty key recorded after it gets a line of its own, and both the
      old line and the key are found afterwards. */
  lemma CarriageReturnEndKeepsKeys(last: string, key: string)
    requires |last| > 0 && Recognisable(last)
    requires |key| > 0 && Recognisable(key)
    ensures !Terminated(Some(last + "\r"))
    ensures ReadLines(Content(Record(Some(last + "\r"), key))) == [last + "\n", key + "\n"]
    ensures WasSent(Record(Some(last + "\r"), key), last)
    ensures WasSent(Record(Some(last + "\r"), key), key)
  {
    assert Content(Record(Some(last + "\r"), key)) == last + "\r" + key + "\n";
    ReadLinesAfterCarriageReturn(last, key);
    StripDropsNewline(last);
    StripFixesExactlyTrimmed(last);
    StripDropsNewline(key);
    StripFixesExactlyTrimmed(key);
    var lines := [last + "\n", key + "\n"];
    assert Strip(lines[0]) == last;
    assert Strip(lines[1]) == key;
  }

}

=== FILE: did_buying.dfy ===
/** Automate_DID_Buying.py: search the number market, then try to buy the
    DIDs whose monthly and setup fees are both below 2.00, in server order,
    stopping at the first confirmed purchase. */
module DidBuying {
  import opened Api
  import opened Thresholds

  /** One entry of `dids`. The fees are the parsed values of fields read
      with `.get(name, 0)`; `i_did` and `number` are read with `[...]`. */
  datatype Did = Did(iDid: string, number: string, monthlyFee: Option<real>, setupFee: Option<real>)

  const FEE_LIMIT: real := 2.0

  /** `float(did.get('monthly_fee', 0)) < 2.00 and float(did.get('setup_fee', 0)) < 2.00`. */
  predicate Affordable(d: Did) {
    Below(d.monthlyFee, FEE_LIMIT) && Below(d.setupFee, FEE_LIMIT)
  }

  /** Both fees are compared strictly, and a missing fee counts as 0. */
  lemma AffordableExactly(d: Did)
    ensures Affordable(d) <==> Amount(d.monthlyFee) < 2.0 && Amount(d.setupFee) < 2.0
    ensures d.monthlyFee == Some(2.0) || d.setupFee == Some(2.0) ==> !Affordable(d)
    ensures d.monthlyFee.None? && d.setupFee.None? ==> Affordable(d)
  {
  }

  /** The purchase request for one DID. */
  datatype Order = Order(iDid: string, billingAccount: string, contact: string, smppContact: string)

  const SIP_HEAD: string := "sip:"
  const SIP_TAIL: string := "@sip01.telecomsxchange.com:5060"
  const SMPP_HEAD: string := "smpp:did:did:"
  const SMPP_TAIL: string := "@smpp01.telecomsxchange.com:2776"

  function OrderFor(d: Did, billingAccount: string): Order {
    Order(d.iDid, billingAccount, SIP_HEAD + d.number + SIP_TAIL, SMPP_HEAD + d.number + SMPP_TAIL)
  }

  /** Order o buys DID d for the billing account, and both its routes point
      at d's number: it sits between a fixed scheme prefix and a fixed
      host-and-port suffix. */
  predicate RoutesTo(o: Order, d: Did, billingAccount: string) {
    && o.iDid == d.iDid && o.billingAccount == billingAccount
    && |o.contact| == 4 + |d.number| + 31
    && o.contact[..4] == "sip:"
    && o.contact[4..4 + |d.number|] == d.number
    && o.contact[4 + |d.number|..] == "@sip01.telecomsxchange.com:5060"
    && |o.smppContact| == 13 + |d.number| + 32
    && o.smppContact[..13] == "smpp:did:did:"
    && o.smppContact[13..13 + |d.number|] == d.number
    && o.smppContact[13 + |d.number|..] == "@smpp01.telecomsxchange.com:2776"
  }

  /** The order for a DID routes to its number. */
  lemma OrderRoutesToNumber(d: Did, billingAccount: string)
    ensures RoutesTo(OrderFor(d, billingAccount), d, billingAccount)
  {
    var o := OrderFor(d, billingAccount);
    assert |SIP_HEAD| == 4 && |SIP_TAIL| == 31 && |SMPP_HEAD| == 13 && |SMPP_TAIL| == 32;
    assert o.contact == SIP_HEAD + d.number + SIP_TAIL;
    assert o.smppContact == SMPP_HEAD + d.number + SMPP_TAIL;
  }

  /** How the script ends.
      SearchFailed: the search reply was not HTTP 200; nothing else happens.
      Crashed:      a body read with `.json()` did not decode; the ValueError
                    is not caught.
      Bought(at):   the purchase of the DID at position `at` was confirmed.
      NoneBought:   the loop ran out; the `for ... else` logs "Failed to
                    purchase any number". */
  datatype End = SearchFailed | Crashed | Bought(at: nat) | NoneBought

  /** The positions of the DIDs a purchase was requested for, in order, and
      how the run ended. */
  datatype Purchase = Purchase(attempted: seq<nat>, end: End)

  /** A candidate that, when tried, is turned down without stopping the
      loop: its purchase reply decodes but is not a confirmation. */
  predicate PassedOver(dids: seq<Did>, replies: seq<Reply<()>>, j: nat)
    requires j < |dids| == |replies|
  {
    Affordable(dids[j]) ==> replies[j].body.Json? && !Confirmed(replies[j])
  }

  predicate AllPassedOver(dids: seq<Did>, replies: seq<Reply<()>>, lo: nat, hi: nat)
    requires lo <= hi <= |dids| == |replies|
  {
    forall j :: lo <= j < hi ==> PassedOver(dids, replies, j)
  }

  /** The loop from position i on. `replies[j]` is what the purchase service
      answers for the DID at position j, used only if that purchase is
      requested. A reply that does not decode makes `.json()` raise, both in
      the success check (status 200) and in the warning that logs the
      reason (any other status). */
  function Scan(dids: seq<Did>, replies: seq<Reply<()>>, i: nat): (r: Purchase)
    requires i <= |dids| == |replies|
    ensures !r.end.SearchFailed?
    ensures forall k, l :: 0 <= k < l < |r.attempted| ==> r.attempted[k] < r.attempted[l]
    ensures forall k :: 0 <= k < |r.attempted| ==>
              i <= r.attempted[k] < |dids| && Affordable(dids[r.attempted[k]])
    decreases |dids| - i
  {
    if i == |dids| then Purchase([], NoneBought)
    else if !Affordable(dids[i]) then Scan(dids, replies, i + 1)
    else if replies[i].body.Undecodable? then Purchase([i], Crashed)
    else if Confirmed(replies[i]) then Purchase([i], Bought(i))
    else
      var rest := Scan(dids, replies, i + 1);
      Purchase([i] + rest.attempted, rest.end)
  }

  /** Every attempt but the last was turned down: a reply that decodes and
      is not a confirmation is the only thing that lets the loop go on. */
  lemma {:induction false} EarlierAttemptsTurnedDown(dids: seq<Did>, replies: seq<Reply<()>>, i: nat, k: nat)
    requires i <= |dids| == |replies|
    requires k + 1 < |Scan(dids, replies, i).attempted|
    ensures PassedOver(dids, replies, Scan(dids, replies, i).attempted[k])
    decreases |dids| - i
  {
    var r := Scan(dids, replies, i);
    var rest := Scan(dids, replies, i + 1);
    if !Affordable(dids[i]) {
      EarlierAttemptsTurnedDown(dids, replies, i + 1, k);
    } else {
      assert r.attempted == [i] + rest.attempted;
      if k > 0 {
        EarlierAttemptsTurnedDown(dids, replies, i + 1, k - 1);
      }
    }
  }

  /** How a purchase ends agrees with its last request: a purchase was
      bought, or the script crashed, on the DID it requested last. */
  predicate EndsOnLastAttempt(r: Purchase, replies: seq<Reply<()>>) {
    && (r.end.Bought? ==>
          |r.attempted| > 0 && r.end.at == r.attempted[|r.attempted| - 1]
          && r.end.at < |replies| && Confirmed(replies[r.end.at]))
    && (r.end.Crashed? ==>
          |r.attempted| > 0 && r.attempted[|r.attempted| - 1] < |replies|
          && replies[r.attempted[|r.attempted| - 1]].body.Undecodable?)
  }

  /** Putting an earlier request in front keeps the last one last. */
  lemma EndsOnLastAttemptPrefix(i: nat, rest: Purchase, replies: seq<Reply<()>>)
    requires EndsOnLastAttempt(rest, replies)
    ensures EndsOnLastAttempt(Purchase([i] + rest.attempted, rest.end), replies)
  {
    var r := Purchase([i] + rest.attempted, rest.end);
    if |rest.attempted| > 0 {
      assert r.attempted[|r.attempted| - 1] == rest.attempted[|rest.attempted| - 1];
    }
  }

  /** The loop stops on the DID it requested last: a confirmed purchase, or
      a reply that does not decode. */
  lemma {:induction false} StopIsLastAttempt(dids: seq<Did>, replies: seq<Reply<()>>, i: nat)
    requires i <= |dids| == |replies|
    ensures EndsOnLastAttempt(Scan(dids, replies, i), replies)
    decreases |dids| - i
  {
    if i < |dids| && Affordable(dids[i]) && replies[i].body.Json? && !Confirmed(replies[i]) {
      StopIsLastAttempt(dids, replies, i + 1);
      EndsOnLastAttemptPrefix(i, Scan(dids, replies, i + 1), replies);
    } else if i < |dids| && !Affordable(dids[i]) {
      StopIsLastAttempt(dids, replies, i + 1);
    }
  }

  lemma AllPassedOverStep(dids: seq<Did>, replies: seq<Reply<()>>, lo: nat, hi: nat)
    requires lo < hi <= |dids| == |replies|
    ensures AllPassedOver(dids, replies, lo, hi) <==>
              PassedOver(dids, replies, lo) && AllPassedOver(dids, replies, lo + 1, hi)
  {
  }

  /** The `for ... else` branch runs exactly when every affordable DID was
      tried and turned down, which includes an empty list and a list with
      no affordable DID. */
  lemma {:induction false} NoneBoughtExactly(dids: seq<Did>, replies: seq<Reply<()>>, i: nat)
    requires i <= |dids| == |replies|
    ensures Scan(dids, replies, i).end == NoneBought <==> AllPassedOver(dids, replies, i, |dids|)
    decreases |dids| - i
  {
    if i < |dids| {
      NoneBoughtExactly(dids, replies, i + 1);
      AllPassedOverStep(dids, replies, i, |dids|);
      var r := Scan(dids, replies, i);
      var rest := Scan(dids, replies, i + 1);
      if !Affordable(dids[i]) {
        assert r == rest;
      } else if replies[i].body.Undecodable? || Confirmed(replies[i]) {
        assert r.end != NoneBought;
        assert !PassedOver(dids, replies, i);
      } else {
        assert r.end == rest.end;
      }
    }
  }

  /** The DID bought is the first affordable one whose purchase is
      confirmed, provided every affordable DID before it was turned down. */
  lemma {:induction false} BoughtExactly(dids: seq<Did>, replies: seq<Reply<()>>, i: nat, b: nat)
    requires i <= |dids| == |replies|
    ensures Scan(dids, replies, i).end == Bought(b) <==>
              && i <= b < |dids| && Affordable(dids[b]) && Confirmed(replies[b])
              && AllPassedOver(dids, replies, i, b)
    decreases |dids| - i
  {
    if i < |dids| {
      BoughtExactly(dids, replies, i + 1, b);
      var r := Scan(dids, replies, i);
      var rest := Scan(dids, replies, i + 1);
      if b == i {
        assert AllPassedOver(dids, replies, i, b);
      } else if i < b <= |dids| {
        AllPassedOverStep(dids, replies, i, b);
      }
      if !Affordable(dids[i]) {
        assert r == rest;
      } else if replies[i].body.Undecodable? {
        assert r.end == Crashed;
      } else if Confirmed(replies[i]) {
        assert r.end == Bought(i);
      } else {
        assert r.end == rest.end;
      }
    }
  }

  /** Every affordable DID before the point where the loop stops gets a
      purchase request: nothing is skipped except for its fees. */
  lemma {:induction false} AffordableIsAttempted(dids: seq<Did>, replies: seq<Reply<()>>, i: nat, j: nat)
    requires i <= j < |dids| == |replies|
    requires Affordable(dids[j])
    requires AllPassedOver(dids, replies, i, j)
    ensures j in Scan(dids, replies, i).attempted
    decreases j - i
  {
    var r := Scan(dids, replies, i);
    if i < j {
      AllPassedOverStep(dids, replies, i, j);
      AffordableIsAttempted(dids, replies, i + 1, j);
      var rest := Scan(dids, replies, i + 1);
      if !Affordable(dids[i]) {
        assert r == rest;
      } else {
        assert r.attempted == [i] + rest.attempted;
      }
    } else {
      assert r.attempted[0] == j;
    }
  }

  /** The script. `search.body.content` is the `dids` member, `None` when
      absent; the search reply's `status` member is never examined. */
  function Buy(search: Reply<Option<seq<Did>>>, replies: seq<Reply<()>>): (r: Purchase)
    requires search.code == HTTP_OK && search.body.Json? ==> |replies| == |search.body.content.GetOr([])|
    ensures r.end == SearchFailed <==> search.code != HTTP_OK
    ensures r.end == SearchFailed ==> r.attempted == []
    ensures search.code == HTTP_OK && search.body.Undecodable? ==> r == Purchase([], Crashed)
    ensures search.code == HTTP_OK && search.body.Json? ==>
              r == Scan(search.body.content.GetOr([]), replies, 0)
  {
    if search.code != HTTP_OK then Purchase([], SearchFailed)
    else match search.body
      case Undecodable => Purchase([], Crashed)
      case Json(_, dids) => Scan(dids.GetOr([]), replies, 0)
  }

  /** A search reply whose `status` is an error is still scanned, and a
      reply without `dids` ends in "Failed to purchase any number". */
  lemma SearchStatusIgnored(status: Option<string>, dids: seq<Did>, replies: seq<Reply<()>>)
    requires |replies| == |dids|
    ensures Buy(Reply(HTTP_OK, Json(status, Some(dids))), replies) == Scan(dids, replies, 0)
    ensures Buy(Reply(HTTP_OK, Json(status, None)), []) == Purchase([], NoneBought)
  {
  }

  /** The purchase requests the script sends, in order. */
  function Orders(dids: seq<Did>, attempted: seq<nat>, billingAccount: string): (o: seq<Order>)
    requires forall k :: 0 <= k < |attempted| ==> attempted[k] < |dids|
    ensures |o| == |attempted|
    ensures forall k :: 0 <= k < |o| ==> o[k] == OrderFor(dids[attempted[k]], billingAccount)
    ensures forall k :: 0 <= k < |o| ==> RoutesTo(o[k], dids[attempted[k]], billingAccount)
  {
    OrdersRoute(dids, attempted, billingAccount);
    seq(|attempted|, k requires 0 <= k < |attempted| => OrderFor(dids[attempted[k]], billingAccount))
  }

  lemma OrdersRoute(dids: seq<Did>, attempted: seq<nat>, billingAccount: string)
    requires forall k :: 0 <= k < |attempted| ==> attempted[k] < |dids|
    ensures forall k :: 0 <= k < |attempted| ==>
              RoutesTo(OrderFor(dids[attempted[k]], billingAccount), dids[attempted[k]], billingAccount)
  {
    forall k | 0 <= k < |attempted|
      ensures RoutesTo(OrderFor(dids[attempted[k]], billingAccount), dids[attempted[k]], billingAccount)
    {
      OrderRoutesToNumber(dids[attempted[k]], billingAccount);
    }
  }
}

=== FILE: low_qos_tickets.dfy ===
/** automate_low_qos_tt.py: raise a trouble ticket for every failed call
    whose disconnect reason is one of the five, at most once per
    call/destination/vendor key across runs, remembered in the sent log. */
module LowQosTickets {
  import opened Api
  import opened Text
  import opened Tickets
  import opened Dedup

  /** The dedup key of a CDR, built the same way by check and record. */
  function CdrKey(c: Cdr): string {
    Key(c.callId, c.cld, c.iVendor)
  }

  /** The fixed wording of the ticket body, between the CDR fields it quotes. */
  const OPENING: string :=
    "Dear Vendor,\n\nWe are writing to inform you of a detected issue concerning the quality of service on your route "
  const ROUTE_END: string :=
    ".Our monitoring systems have identified that the call to destination number "
  const REASON_HEAD: string := " has failed.\n\nError Details:\n- Disconnect Reason: "
  const TIME_HEAD: string := "\n- Timestamp of Occurrence: "
  const CLOSING: string :=
    "\n\nWe request your immediate attention and action to resolve this issue as it is affecting our service delivery."
    + "We appreciate your prompt response and solution to this matter.\n\nThank you for your cooperation."

  /** The body of the ticket this script sends. The source's f-string pieces
      meet without a space after the route name. */
  function Letter(c: Cdr): string {
    OPENING + c.connectionName + ROUTE_END + c.cld
    + REASON_HEAD + Render(c.disconnectReason) + TIME_HEAD + c.connectTime + CLOSING
  }

  function Compose(c: Cdr, ticket: string): Message {
    Message(c.iVendor, Subject(ticket, c.cld), Letter(c))
  }

  /** A ticket sent for the CDR at position `at`, under ticket number
      `number`; the message sent is `Compose(cdrs[at], number)`. */
  datatype Ticket = Ticket(at: nat, number: string)

  datatype PassResult = PassResult(sent: seq<Ticket>, log: Log)

  /** Some qualifying CDR among the first n has a key whose record leaves a
      line that a check for `key` finds. */
  predicate CoveredBefore(cdrs: seq<Cdr>, n: nat, key: string)
    requires n <= |cdrs|
  {
    n > 0 && (CoveredBefore(cdrs, n - 1, key) || (Qualifies(cdrs[n - 1]) && Leaves(CdrKey(cdrs[n - 1]), key)))
  }

  /** Independent statement of when the CDR at position i gets a ticket: it
      qualifies, its key was not in the log the run started with, and no
      earlier qualifying CDR has a key whose record leaves a line for it. */
  predicate Fresh(log: Log, cdrs: seq<Cdr>, i: nat)
    requires i < |cdrs|
  {
    && Qualifies(cdrs[i])
    && !WasSent(log, CdrKey(cdrs[i]))
    && !CoveredBefore(cdrs, i, CdrKey(cdrs[i]))
  }

  lemma {:induction false} CoveredBeforeExactly(cdrs: seq<Cdr>, n: nat, key: string)
    requires n <= |cdrs|
    ensures CoveredBefore(cdrs, n, key) <==>
              exists j :: 0 <= j < n && Qualifies(cdrs[j]) && Leaves(CdrKey(cdrs[j]), key)
  {
    if n > 0 {
      CoveredBeforeExactly(cdrs, n - 1, key);
      var c := cdrs[n - 1];
      if Qualifies(c) && Leaves(CdrKey(c), key) {
        assert CoveredBefore(cdrs, n, key);
      } else if CoveredBefore(cdrs, n, key) {
        var j :| 0 <= j < n - 1 && Qualifies(cdrs[j]) && Leaves(CdrKey(cdrs[j]), key);
      } else {
        forall j | 0 <= j < n
          ensures !(Qualifies(cdrs[j]) && Leaves(CdrKey(cdrs[j]), key))
        {
        }
      }
    }
  }

  /** The loop over the first n CDRs: check, send, record. */
  function Pass(log: Log, cdrs: seq<Cdr>, numbers: seq<string>, n: nat): (r: PassResult)
    requires n <= |cdrs| == |numbers|
    ensures forall k :: 0 <= k < |r.sent| ==> r.sent[k].at < n
  {
    if n == 0 then PassResult([], log)
    else Step(Pass(log, cdrs, numbers, n - 1), cdrs[n - 1], n - 1, numbers[n - 1])
  }

  /** A pass sends its tickets in CDR order. */
  lemma {:induction false} PassAscending(log: Log, cdrs: seq<Cdr>, numbers: seq<string>, n: nat, k: nat, l: nat)
    requires n <= |cdrs| == |numbers|
    requires k < l < |Pass(log, cdrs, numbers, n).sent|
    ensures Pass(log, cdrs, numbers, n).sent[k].at < Pass(log, cdrs, numbers, n).sent[l].at
  {
    var p := Pass(log, cdrs, numbers, n - 1);
    if l < |p.sent| {
      PassAscending(log, cdrs, numbers, n - 1, k, l);
    }
  }

  /** Every ticket of a pass carries the number drawn for its CDR. */
  lemma {:induction false} PassNumbers(log: Log, cdrs: seq<Cdr>, numbers: seq<string>, n: nat, k: nat)
    requires n <= |cdrs| == |numbers|
    requires k < |Pass(log, cdrs, numbers, n).sent|
    ensures var t := Pass(log, cdrs, numbers, n).sent[k];
            t.at < |numbers| && t.number == numbers[t.at]
  {
    var p := Pass(log, cdrs, numbers, n - 1);
    if k < |p.sent| {
      PassNumbers(log, cdrs, numbers, n - 1, k);
    }
  }

  /** One iteration: CDR c, at position `at`, gets ticket `number` if it
      qualifies and its key is not in the log yet; the key is then recorded. */
  function Step(p: PassResult, c: Cdr, at: nat, number: string): (s: PassResult)
    ensures s == p || s == PassResult(p.sent + [Ticket(at, number)], Record(p.log, CdrKey(c)))
    ensures s != p <==> Qualifies(c) && !WasSent(p.log, CdrKey(c))
  {
    if Qualifies(c) && !WasSent(p.log, CdrKey(c)) then
      PassResult(p.sent + [Ticket(at, number)], Record(p.log, CdrKey(c)))
    else p
  }

  /** The log line that records ticket t: its CDR's key and a line break. */
  function KeyLine(cdrs: seq<Cdr>, t: Ticket): string {
    if t.at < |cdrs| then CdrKey(cdrs[t.at]) + "\n" else ""
  }

  /** The log lines that record the given tickets, in order. */
  function KeyLines(cdrs: seq<Cdr>, sent: seq<Ticket>): (lines: seq<string>)
    ensures |lines| == |sent|
    ensures forall k :: 0 <= k < |sent| && sent[k].at < |cdrs| ==>
              lines[k] == CdrKey(cdrs[sent[k].at]) + "\n"
  {
    seq(|sent|, k requires 0 <= k < |sent| => KeyLine(cdrs, sent[k]))
  }

  lemma KeyLinesSnoc(cdrs: seq<Cdr>, sent: seq<Ticket>, t: Ticket)
    requires t.at < |cdrs|
    ensures KeyLines(cdrs, sent + [t]) == KeyLines(cdrs, sent) + [CdrKey(cdrs[t.at]) + "\n"]
  {
  }

  lemma AppendsKeysStep(before: string, cdrs: seq<Cdr>, p: PassResult, at: nat, number: string)
    requires at < |cdrs|
    requires Content(p.log) == before + Concat(KeyLines(cdrs, p.sent))
    ensures var s := Step(p, cdrs[at], at, number);
            Content(s.log) == before + Concat(KeyLines(cdrs, s.sent))
  {
    var s := Step(p, cdrs[at], at, number);
    if s != p {
      var line := CdrKey(cdrs[at]) + "\n";
      var written := KeyLines(cdrs, p.sent);
      KeyLinesSnoc(cdrs, p.sent, Ticket(at, number));
      assert (written + [line])[..|written|] == written;
      assert Concat(written + [line]) == Concat(written) + line;
      assert Content(s.log) == (before + Concat(written)) + line;
      StringAssoc(before, Concat(written), line);
    }
  }

  lemma NoKeyLines(log: Log, cdrs: seq<Cdr>)
    ensures Content(log) + Concat(KeyLines(cdrs, [])) == Content(log)
  {
    assert KeyLines(cdrs, []) == [];
  }

  /** The file only grows: a pass appends to the text it found one key and
      "\n" per ticket sent, in sending order, and changes nothing else. */
  lemma {:induction false} PassAppendsKeys(log: Log, cdrs: seq<Cdr>, numbers: seq<string>, n: nat)
    requires n <= |cdrs| == |numbers|
    ensures var r := Pass(log, cdrs, numbers, n);
            Content(r.log) == Content(log) + Concat(KeyLines(cdrs, r.sent))
  {
    if n > 0 {
      var p := Pass(log, cdrs, numbers, n - 1);
      PassAppendsKeys(log, cdrs, numbers, n - 1);
      AppendsKeysStep(Content(log), cdrs, p, n - 1, numbers[n - 1]);
      assert Pass(log, cdrs, numbers, n) == Step(p, cdrs[n - 1], n - 1, numbers[n - 1]);
    } else {
      NoKeyLines(log, cdrs);
    }
  }

  /** A pass that sends nothing leaves the log as it found it; one that
      sends something leaves a file behind that ends in "\n". */
  lemma {:induction false} QuietPassKeepsLog(log: Log, cdrs: seq<Cdr>, numbers: seq<string>, n: nat)
    requires n <= |cdrs| == |numbers|
    ensures var r := Pass(log, cdrs, numbers, n);
            && (r.sent == [] ==> r.log == log)
            && (r.sent != [] ==> r.log.Some? && Terminated(r.log))
  {
    if n > 0 {
      QuietPassKeepsLog(log, cdrs, numbers, n - 1);
    }
  }

  /** After the first n CDRs, starting from a terminated file, a check
      finds a key exactly when it found it at the start or the key of a
      qualifying CDR walked so far leaves a line for it, whether that
      CDR's ticket went out in this run or was already recorded. */
  lemma {:induction false} PassKnows(log: Log, cdrs: seq<Cdr>, numbers: seq<string>, n: nat, key: string)
    requires n <= |cdrs| == |numbers|
    requires Terminated(log)
    ensures WasSent(Pass(log, cdrs, numbers, n).log, key) <==> WasSent(log, key) || CoveredBefore(cdrs, n, key)
  {
    if n > 0 {
      PassKnows(log, cdrs, numbers, n - 1, key);
      QuietPassKeepsLog(log, cdrs, numbers, n - 1);
      KnowsStep(Pass(log, cdrs, numbers, n - 1), cdrs[n - 1], n - 1, numbers[n - 1], key);
    }
  }

  /** One iteration on a terminated file: afterwards a key is found exactly
      when it was before or the CDR qualifies and its record leaves a line
      for the key, whether or not it was sent this time. */
  lemma KnowsStep(p: PassResult, c: Cdr, at: nat, number: string, key: string)
    requires Terminated(p.log)
    ensures WasSent(Step(p, c, at, number).log, key) <==>
              WasSent(p.log, key) || (Qualifies(c) && Leaves(CdrKey(c), key))
  {
    var k := CdrKey(c);
    if Qualifies(c) && !WasSent(p.log, k) {
      SeenAfterRecord(p.log, k, key);
    } else if Qualifies(c) {
      SeenKeyIsRecognisable(p.log, k);
      SingleLineLeaves(k, key);
      StripFixesExactlyTrimmed(k);
    }
  }

  /** Whether the CDR at position n - 1 gets a ticket, stated through the
      log the run started with. */
  lemma {:induction false} StepSendsIffFresh(log: Log, cdrs: seq<Cdr>, numbers: seq<string>, n: nat)
    requires 0 < n <= |cdrs| == |numbers|
    requires Terminated(log)
    ensures Fresh(log, cdrs, n - 1) <==>
              Qualifies(cdrs[n - 1]) && !WasSent(Pass(log, cdrs, numbers, n - 1).log, CdrKey(cdrs[n - 1]))
  {
    var key := CdrKey(cdrs[n - 1]);
    PassKnows(log, cdrs, numbers, n - 1, key);
    assert Fresh(log, cdrs, n - 1) <==>
             Qualifies(cdrs[n - 1]) && !WasSent(log, key) && !CoveredBefore(cdrs, n - 1, key);
  }

  /** Every ticket of a pass is for a fresh CDR. */
  lemma {:induction false} SentIsFresh(log: Log, cdrs: seq<Cdr>, numbers: seq<string>, n: nat, k: nat)
    requires n <= |cdrs| == |numbers|
    requires Terminated(log)
    requires k < |Pass(log, cdrs, numbers, n).sent|
    ensures Fresh(log, cdrs, Pass(log, cdrs, numbers, n).sent[k].at)
  {
    var p := Pass(log, cdrs, numbers, n - 1);
    var r := Pass(log, cdrs, numbers, n);
    var c := cdrs[n - 1];
    StepSendsIffFresh(log, cdrs, numbers, n);
    if Qualifies(c) && !WasSent(p.log, CdrKey(c)) {
      assert r.sent == p.sent + [Ticket(n - 1, numbers[n - 1])];
      if k < |p.sent| {
        SentIsFresh(log, cdrs, numbers, n - 1, k);
        assert r.sent[k] == p.sent[k];
      }
    } else {
      SentIsFresh(log, cdrs, numbers, n - 1, k);
    }
  }

  /** Every fresh CDR among the first n gets a ticket. */
  lemma {:induction false} FreshIsSent(log: Log, cdrs: seq<Cdr>, numbers: seq<string>, n: nat, i: nat)
    requires i < n <= |cdrs| == |numbers|
    requires Terminated(log)
    requires Fresh(log, cdrs, i)
    ensures exists k :: 0 <= k < |Pass(log, cdrs, numbers, n).sent| && Pass(log, cdrs, numbers, n).sent[k].at == i
  {
    var p := Pass(log, cdrs, numbers, n - 1);
    var r := Pass(log, cdrs, numbers, n);
    var c := cdrs[n - 1];
    StepSendsIffFresh(log, cdrs, numbers, n);
    var sends := Qualifies(c) && !WasSent(p.log, CdrKey(c));
    if sends {
      assert r.sent == p.sent + [Ticket(n - 1, numbers[n - 1])];
    } else {
      assert r == p;
    }
    if i == n - 1 {
      assert r.sent[|p.sent|].at == i;
    } else {
      FreshIsSent(log, cdrs, numbers, n - 1, i);
      var k :| 0 <= k < |p.sent| && p.sent[k].at == i;
      assert r.sent[k] == p.sent[k];
    }
  }

  /** Tickets go out exactly for the fresh CDRs: every ticket is for a fresh
      CDR and every fresh CDR gets one. */
  lemma PassSendsExactlyFresh(log: Log, cdrs: seq<Cdr>, numbers: seq<string>, n: nat)
    requires n <= |cdrs| == |numbers|
    requires Terminated(log)
    ensures var r := Pass(log, cdrs, numbers, n);
            forall k :: 0 <= k < |r.sent| ==> Fresh(log, cdrs, r.sent[k].at)
    ensures var r := Pass(log, cdrs, numbers, n);
            forall i :: 0 <= i < n && Fresh(log, cdrs, i) ==> exists k :: 0 <= k < |r.sent| && r.sent[k].at == i
  {
    var r := Pass(log, cdrs, numbers, n);
    forall k | 0 <= k < |r.sent|
      ensures Fresh(log, cdrs, r.sent[k].at)
    {
      SentIsFresh(log, cdrs, numbers, n, k);
    }
    forall i | 0 <= i < n && Fresh(log, cdrs, i)
      ensures exists k :: 0 <= k < |r.sent| && r.sent[k].at == i
    {
      FreshIsSent(log, cdrs, numbers, n, i);
    }
  }

  /** The script: fetch the call history, then run the loop over all CDRs.
      No CDR is looked at unless the history reply is confirmed. */
  function Run(history: Reply<seq<Cdr>>, log: Log, draws: seq<seq<nat>>): (r: Outcome<PassResult>)
    requires Confirmed(history) ==> |draws| == |history.body.content|
    requires ValidTicketDraws(draws)
    ensures r.Accepted? <==> Confirmed(history)
    ensures r.Accepted? ==>
              r.content == Pass(log, history.body.content, TicketNumbers(draws), |history.body.content|)
    ensures r.Rejected? ==> r.failure == Classify(history).failure
  {
    match Classify(history)
    case Rejected(f) => Rejected(f)
    case Accepted(cdrs) => Accepted(Pass(log, cdrs, TicketNumbers(draws), |cdrs|))
  }

  /** Keys of qualifying CDRs are recognisable: no surrounding whitespace
      and no line break, the condition under which a recorded key is found
      by the next check. */
  predicate RecognisableKeys(cdrs: seq<Cdr>) {
    forall i :: 0 <= i < |cdrs| && Qualifies(cdrs[i]) ==> Recognisable(CdrKey(cdrs[i]))
  }

  /** After a pass from a terminated file, every qualifying CDR with a
      recognisable key is found in the file, so none of them is fresh any
      more. */
  lemma {:induction false} NothingFreshAfterPass(log: Log, cdrs: seq<Cdr>, numbers: seq<string>, i: nat)
    requires i < |cdrs| == |numbers|
    requires Terminated(log)
    requires Qualifies(cdrs[i]) ==> Recognisable(CdrKey(cdrs[i]))
    ensures !Fresh(Pass(log, cdrs, numbers, |cdrs|).log, cdrs, i)
  {
    var key := CdrKey(cdrs[i]);
    if Qualifies(cdrs[i]) {
      SingleLineLeaves(key, key);
      StripFixesExactlyTrimmed(key);
      CoveredBeforeExactly(cdrs, |cdrs|, key);
      PassKnows(log, cdrs, numbers, |cdrs|, key);
    }
  }

  /** Running the loop a second time over the same CDRs, against the file
      the first run left, sends nothing and leaves the file as it was. */
  lemma {:induction false} SecondPassSendsNothing(
    log: Log, cdrs: seq<Cdr>, first: seq<string>, second: seq<string>)
    requires |cdrs| == |first| == |second|
    requires Terminated(log)
    requires RecognisableKeys(cdrs)
    ensures var p1 := Pass(log, cdrs, first, |cdrs|);
            var p2 := Pass(p1.log, cdrs, second, |cdrs|);
            p2.sent == [] && p2.log == p1.log
  {
    var p1 := Pass(log, cdrs, first, |cdrs|);
    var p2 := Pass(p1.log, cdrs, second, |cdrs|);
    QuietPassKeepsLog(log, cdrs, first, |cdrs|);
    if |p2.sent| > 0 {
      var i := p2.sent[0].at;
      SentIsFresh(p1.log, cdrs, second, |cdrs|, 0);
      NothingFreshAfterPass(log, cdrs, first, i);
      assert false;
    }
    QuietPassKeepsLog(p1.log, cdrs, second, |cdrs|);
  }

  /** Within one run from a terminated file, two tickets never share a key,
      unless that key is one a check never finds. */
  lemma OneTicketPerKey(log: Log, cdrs: seq<Cdr>, numbers: seq<string>, k: nat, l: nat)
    requires |cdrs| == |numbers|
    requires Terminated(log)
    requires var r := Pass(log, cdrs, numbers, |cdrs|); k < l < |r.sent|
    ensures var r := Pass(log, cdrs, numbers, |cdrs|);
            CdrKey(cdrs[r.sent[k].at]) == CdrKey(cdrs[r.sent[l].at]) ==> !Recognisable(CdrKey(cdrs[r.sent[k].at]))
  {
    var r := Pass(log, cdrs, numbers, |cdrs|);
    var key := CdrKey(cdrs[r.sent[k].at]);
    PassAscending(log, cdrs, numbers, |cdrs|, k, l);
    PassSendsExactlyFresh(log, cdrs, numbers, |cdrs|);
    assert Fresh(log, cdrs, r.sent[k].at);
    assert Fresh(log, cdrs, r.sent[l].at);
    CoveredBeforeExactly(cdrs, r.sent[l].at, CdrKey(cdrs[r.sent[l].at]));
    if Recognisable(key) {
      SingleLineLeaves(key, key);
      StripFixesExactlyTrimmed(key);
    }
  }

  /** A CDR whose key a check never finds (padded with whitespace, or with
      a line break inside) gets a ticket on every run, and both copies of it
      in one batch get one, whatever the file holds. */
  lemma UnrecognisableKeyTicketedAgain(log: Log, c: Cdr, numbers: seq<string>)
    requires |numbers| == 2
    requires Qualifies(c) && !Recognisable(CdrKey(c))
    ensures |Pass(log, [c], numbers[..1], 1).sent| == 1
    ensures |Pass(log, [c, c], numbers, 2).sent| == 2
  {
    var p := Pass(log, [c, c], numbers, 1);
    assert Pass(log, [c, c], numbers, 0) == PassResult([], log);
    assert Pass(log, [c], numbers[..1], 0) == PassResult([], log);
    UnrecognisableNeverSeen(log, CdrKey(c));
    UnrecognisableNeverSeen(p.log, CdrKey(c));
  }

  /** Two copies of the same qualifying CDR in one batch produce one ticket
      when the file is terminated: the first copy's key is recorded before
      the second is checked. */
  lemma DuplicateCdrTicketedOnce(log: Log, c: Cdr, numbers: seq<string>)
    requires |numbers| == 2
    requires Terminated(log)
    requires Qualifies(c) && Recognisable(CdrKey(c)) && !WasSent(log, CdrKey(c))
    ensures |Pass(log, [c, c], numbers, 2).sent| == 1
  {
    var p := Pass(log, [c, c], numbers, 1);
    assert Pass(log, [c, c], numbers, 0) == PassResult([], log);
    assert p.log == Record(log, CdrKey(c));
    RecordThenSeen(log, CdrKey(c));
  }

  /** After a file whose only line lacks its "\n", the same two copies
      produce two tickets: the first key is written onto that line and is
      not found again. */
  lemma UnterminatedLogTicketsDuplicateTwice(last: string, c: Cdr, numbers: seq<string>)
    requires |numbers| == 2
    requires |last| > 0 && Recognisable(last) && last != CdrKey(c)
    requires Qualifies(c) && Recognisable(CdrKey(c))
    ensures |Pass(Some(last), [c, c], numbers, 2).sent| == 2
  {
    var key := CdrKey(c);
    var p := Pass(Some(last), [c, c], numbers, 1);
    assert Pass(Some(last), [c, c], numbers, 0) == PassResult([], Some(last));
    ReadLinesUnterminated(last);
    StripFixesExactlyTrimmed(last);
    assert !WasSent(Some(last), key) by {
      assert ReadLines(last) == [last];
    }
    assert p.log == Record(Some(last), key);
    UnterminatedLineSwallowsKey(last, key);
  }

  /** The messages a pass sends, one per ticket and in sending order: each
      goes to its CDR's vendor and describes that CDR, and a valid ticket
      number and the destination can be read back from its subject. */
  function Outbox(cdrs: seq<Cdr>, sent: seq<Ticket>): (m: seq<Message>)
    requires forall k :: 0 <= k < |sent| ==> sent[k].at < |cdrs|
    ensures |m| == |sent|
    ensures forall k :: 0 <= k < |m| ==> m[k] == Compose(cdrs[sent[k].at], sent[k].number)
    ensures forall k :: 0 <= k < |m| ==>
              m[k].id == cdrs[sent[k].at].iVendor && m[k].text == Letter(cdrs[sent[k].at])
    ensures forall k :: 0 <= k < |m| && ValidTicketId(sent[k].number, TICKET_LENGTH) ==>
              && |m[k].subject| == 57 + |cdrs[sent[k].at].cld|
              && m[k].subject[16..26] == sent[k].number
              && m[k].subject[57..] == cdrs[sent[k].at].cld
  {
    SubjectsReadBack(cdrs, sent);
    seq(|sent|, k requires 0 <= k < |sent| => Compose(cdrs[sent[k].at], sent[k].number))
  }

  lemma SubjectsReadBack(cdrs: seq<Cdr>, sent: seq<Ticket>)
    requires forall k :: 0 <= k < |sent| ==> sent[k].at < |cdrs|
    ensures forall k :: 0 <= k < |sent| && ValidTicketId(sent[k].number, TICKET_LENGTH) ==>
              var s := Subject(sent[k].number, cdrs[sent[k].at].cld);
              |s| == 57 + |cdrs[sent[k].at].cld| && s[16..26] == sent[k].number && s[57..] == cdrs[sent[k].at].cld
  {
    forall k | 0 <= k < |sent| && ValidTicketId(sent[k].number, TICKET_LENGTH)
      ensures var s := Subject(sent[k].number, cdrs[sent[k].at].cld);
              |s| == 57 + |cdrs[sent[k].at].cld| && s[16..26] == sent[k].number && s[57..] == cdrs[sent[k].at].cld
    {
      SubjectReadsBack(sent[k].number, cdrs[sent[k].at].cld);
    }
  }

  /** Each message of a run goes to the vendor of its CDR, under a subject
      that carries its ticket number and the destination at fixed offsets,
      and describes that CDR. */
  lemma OutboxReadsBack(log: Log, cdrs: seq<Cdr>, numbers: seq<string>, k: nat)
    requires |cdrs| == |numbers|
    requires forall i :: 0 <= i < |numbers| ==> ValidTicketId(numbers[i], TICKET_LENGTH)
    requires k < |Pass(log, cdrs, numbers, |cdrs|).sent|
    ensures var r := Pass(log, cdrs, numbers, |cdrs|);
            var m := Outbox(cdrs, r.sent)[k];
            var c := cdrs[r.sent[k].at];
            && m.id == c.iVendor
            && |m.subject| == 57 + |c.cld|
            && m.subject[16..26] == r.sent[k].number
            && ValidTicketId(m.subject[16..26], TICKET_LENGTH)
            && m.subject[57..] == c.cld
            && m.text == Letter(c)
  {
    var r := Pass(log, cdrs, numbers, |cdrs|);
    PassNumbers(log, cdrs, numbers, |cdrs|, k);
    SubjectReadsBack(r.sent[k].number, cdrs[r.sent[k].at].cld);
  }
}

=== FILE: numbers_selling.dfy ===
/** automate_numbers_selling.py: list each configured number for sale from
    one listing template, collect the listings that went through, and, if
    there are any, send every buyer one message describing all of them. */
module NumbersSelling {
  import opened Api
  import opened Text

  /** The listing form (`did_data`). Every field is the text the form sends. */
  datatype Listing = Listing(
    number: string,
    price1: string,
    interval1: string,
    monthlyFee: string,
    setupFee: string,
    didType: string,
    voice: string,
    sms: string,
    smppPrice: string,
    capacity: string,
    status: string,
    parent: string)

  const BLOCKED: string := "blocked"

  /** The form sent for one number: the template with that number. */
  function ListingFor(template: Listing, number: string): (l: Listing)
    ensures l.number == number
    ensures l.(number := template.number) == template
  {
    template.(number := number)
  }

  /** One listing request per configured number, in list order. */
  function ListingRequests(numbers: seq<string>, template: Listing): (q: seq<Listing>)
    ensures |q| == |numbers|
    ensures forall i :: 0 <= i < |q| ==> q[i] == ListingFor(template, numbers[i])
    ensures forall i :: 0 <= i < |q| ==>
              q[i].number == numbers[i] && q[i].(number := template.number) == template
  {
    seq(|numbers|, i requires 0 <= i < |numbers| => ListingFor(template, numbers[i]))
  }

  /** A reply the script reads with `.json()` whenever its status is 200,
      with no handler for a body that does not decode. */
  predicate Readable<T>(r: Reply<T>) {
    r.code == HTTP_OK ==> r.body.Json?
  }

  /** The listing of number i is kept for the buyers' message: the listing
      is confirmed (`'status' in result and result['status'] == 'success'`)
      and the form's status is not "blocked". */
  predicate Kept(template: Listing, replies: seq<Reply<()>>, i: nat)
    requires i < |replies|
  {
    Confirmed(replies[i]) && template.status != BLOCKED
  }

  /** The listing loop over the first n numbers: the positions whose
      listing is appended to `did_messages`, in order. */
  function Accumulate(template: Listing, replies: seq<Reply<()>>, n: nat): (r: seq<nat>)
    requires n <= |replies|
    ensures |r| <= n
    ensures forall k, l :: 0 <= k < l < |r| ==> r[k] < r[l]
    ensures forall k :: 0 <= k < |r| ==> r[k] < n && Kept(template, replies, r[k])
  {
    if n == 0 then []
    else
      var p := Accumulate(template, replies, n - 1);
      if Kept(template, replies, n - 1) then p + [n - 1] else p
  }

  /** Every kept listing among the first n is in `did_messages`. */
  lemma {:induction false} KeptIsAccumulated(template: Listing, replies: seq<Reply<()>>, n: nat, i: nat)
    requires i < n <= |replies|
    requires Kept(template, replies, i)
    ensures i in Accumulate(template, replies, n)
  {
    if i < n - 1 {
      KeptIsAccumulated(template, replies, n - 1, i);
    }
  }

  /** A blocked template keeps nothing, whatever the service answers. */
  lemma {:induction false} BlockedKeepsNothing(template: Listing, replies: seq<Reply<()>>, n: nat)
    requires n <= |replies|
    requires template.status == BLOCKED
    ensures Accumulate(template, replies, n) == []
  {
    if n > 0 {
      BlockedKeepsNothing(template, replies, n - 1);
    }
  }

  /** `did_messages`: the forms of the kept listings, in list order. */
  function DidMessages(numbers: seq<string>, template: Listing, kept: seq<nat>): (m: seq<Listing>)
    requires forall k :: 0 <= k < |kept| ==> kept[k] < |numbers|
    ensures |m| == |kept|
    ensures forall k :: 0 <= k < |m| ==> m[k] == ListingFor(template, numbers[kept[k]])
    ensures forall k :: 0 <= k < |m| ==>
              m[k].number == numbers[kept[k]] && m[k].(number := template.number) == template
  {
    seq(|kept|, k requires 0 <= k < |kept| => ListingFor(template, numbers[kept[k]]))
  }

  /** One entry of the buyers list. */
  datatype Buyer = Buyer(login: string, iCustomer: string)

  const SUBJECT: string := "New DID Numbers Listed for sale"
  const GREETING_HEAD: string := "Dear "
  const GREETING_TAIL: string :=
    ",\n\nWe have recently listed new DID numbers on the marketplace for sale. Here are the details:\n\n"
  const SIGN_OFF: string := "Best Regards,\n"

  /** The labels of the detail block, in the order the block lists them. */
  const NUMBER_LABEL: string := "Number: "
  const PRICE_LABEL: string := "\nPrice: "
  const INTERVAL_LABEL: string := "\nInterval: "
  const MONTHLY_LABEL: string := "\nMonthly Fee: "
  const SETUP_LABEL: string := "\nSetup Fee: "
  const TYPE_LABEL: string := "\nDID Type: "
  const VOICE_LABEL: string := "\nVoice: "
  const SMS_LABEL: string := "\nSMS: "
  const SMPP_LABEL: string := "\nSMPP Price: "
  const CAPACITY_LABEL: string := "\nCapacity: "
  const STATUS_LABEL: string := "\nStatus: "
  const BLOCK_END: string := "\n\n"

  /** The detail block for one listing. */
  function Block(l: Listing): string {
    NUMBER_LABEL + l.number + PRICE_LABEL + l.price1 + INTERVAL_LABEL + l.interval1
    + MONTHLY_LABEL + l.monthlyFee + SETUP_LABEL + l.setupFee
    + TYPE_LABEL + l.didType + VOICE_LABEL + l.voice + SMS_LABEL + l.sms
    + SMPP_LABEL + l.smppPrice + CAPACITY_LABEL + l.capacity
    + STATUS_LABEL + l.status + BLOCK_END
  }

  /** The blocks of all listings, in order: the text the inner loop appends. */
  function Blocks(ls: seq<Listing>): string {
    Concat(seq(|ls|, i requires 0 <= i < |ls| => Block(ls[i])))
  }

  /** Blocks of a concatenation are the concatenation of the blocks: each
      listing contributes its own block, in place. */
  lemma BlocksAppend(a: seq<Listing>, b: seq<Listing>)
    ensures Blocks(a + b) == Blocks(a) + Blocks(b)
  {
    var pa := seq(|a|, i requires 0 <= i < |a| => Block(a[i]));
    var pb := seq(|b|, i requires 0 <= i < |b| => Block(b[i]));
    var pab := seq(|a + b|, i requires 0 <= i < |a + b| => Block((a + b)[i]));
    assert pab == pa + pb;
    ConcatAppend(pa, pb);
  }

  /** The message to one buyer. */
  function Notice(b: Buyer, ls: seq<Listing>): Message {
    Message(b.iCustomer, SUBJECT, GREETING_HEAD + b.login + GREETING_TAIL + Blocks(ls) + SIGN_OFF)
  }

  /** Message m is the notice to buyer b about listings ls: it has the fixed
      subject, goes to `i_customer`, opens with "Dear <login>," and the fixed
      introduction, carries one block per listing in order, and closes with
      the sign-off. */
  predicate NoticeFor(m: Message, b: Buyer, ls: seq<Listing>) {
    var g := |GREETING_HEAD| + |b.login| + |GREETING_TAIL|;
    && m.id == b.iCustomer && m.subject == "New DID Numbers Listed for sale"
    && |m.text| == g + |Blocks(ls)| + 14
    && m.text[..5] == "Dear "
    && m.text[5..5 + |b.login|] == b.login
    && m.text[5 + |b.login|..g] == GREETING_TAIL
    && m.text[g..g + |Blocks(ls)|] == Blocks(ls)
    && m.text[g + |Blocks(ls)|..] == "Best Regards,\n"
  }

  /** Every buyer's message is laid out as `NoticeFor` says. */
  lemma NoticeLayout(b: Buyer, ls: seq<Listing>)
    ensures NoticeFor(Notice(b, ls), b, ls)
  {
    LetterLayout(b.login, Blocks(ls));
  }

  /** The greeting, body and sign-off of a notice sit at fixed offsets. */
  lemma LetterLayout(login: string, blocks: string)
    ensures var text := GREETING_HEAD + login + GREETING_TAIL + blocks + SIGN_OFF;
            var g := |GREETING_HEAD| + |login| + |GREETING_TAIL|;
            && |text| == g + |blocks| + 14
            && text[..5] == "Dear "
            && text[5..5 + |login|] == login
            && text[5 + |login|..g] == GREETING_TAIL
            && text[g..g + |blocks|] == blocks
            && text[g + |blocks|..] == "Best Regards,\n"
  {
    var head := GREETING_HEAD + login + GREETING_TAIL;
    assert |GREETING_HEAD| == 5 && |SIGN_OFF| == 14;
    Slices3(GREETING_HEAD, login, GREETING_TAIL);
    Slices3(head, blocks, SIGN_OFF);
    var text := head + blocks + SIGN_OFF;
    assert text[..5] == text[..|head|][..5];
    assert text[5..5 + |login|] == text[..|head|][5..5 + |login|];
    assert text[5 + |login|..|head|] == text[..|head|][5 + |login|..];
  }

  /** A reply of the message service; its content is the `i_message`
      member, which may be absent. */
  type MessageReply = Reply<Option<string>>

  /** A confirmed message reply carries `i_message`: the script reads it
      with `[...]` to log the confirmation, with no handler for its absence. */
  predicate Identified(r: MessageReply) {
    Confirmed(r) ==> r.body.content.Some?
  }

  /** How the reply to one buyer's message is taken: a confirmation yields
      the id of the message sent; anything else is the failure `Classify`
      reports. An HTTP 200 reply is decoded with no handler, so it must
      decode; a reply that was taken is never malformed. */
  function Acknowledge(r: MessageReply): (o: Outcome<string>)
    requires Readable(r) && Identified(r)
    ensures o.Accepted? <==> Confirmed(r)
    ensures o.Accepted? ==> Some(o.content) == r.body.content
    ensures o.Rejected? ==> o.failure == Classify(r).failure
    ensures o.Rejected? ==> !o.failure.MalformedResponse?
  {
    match Classify(r)
    case Accepted(id) => Accepted(id.value)
    case Rejected(f) => Rejected(f)
  }

  /** The message to one buyer was sent, and how its reply was taken. */
  datatype Delivery = Delivery(to: nat, outcome: Outcome<string>)

  /** What happens after the listing loop.
      NotRequested:      `did_messages` is empty; the buyers list is not fetched.
      BuyersFailed(code): the buyers list reply was not HTTP 200.
      Sent(deliveries):  one message per buyer, in list order. */
  datatype Notification = NotRequested | BuyersFailed(code: int) | Sent(deliveries: seq<Delivery>)

  /** The notification step. `buyersReply.body.content` is the `buyers`
      member (its `status` is not examined); `replies[j]` is what the message
      service answers for buyer j. */
  function Notify(listings: seq<Listing>, buyersReply: Reply<seq<Buyer>>, replies: seq<MessageReply>): (r: Notification)
    requires |listings| > 0 && buyersReply.code == HTTP_OK ==>
               && buyersReply.body.Json? && |replies| == |buyersReply.body.content|
               && forall j :: 0 <= j < |replies| ==> Readable(replies[j]) && Identified(replies[j])
    ensures r == NotRequested <==> |listings| == 0
    ensures r.BuyersFailed? <==> |listings| > 0 && buyersReply.code != HTTP_OK
    ensures r.BuyersFailed? ==> r.code == buyersReply.code
    ensures r.Sent? ==>
              && |r.deliveries| == |buyersReply.body.content|
              && forall j :: 0 <= j < |r.deliveries| ==>
                   && r.deliveries[j].to == j
                   && (r.deliveries[j].outcome.Accepted? <==> Confirmed(replies[j]))
                   && (r.deliveries[j].outcome.Accepted? ==>
                         Some(r.deliveries[j].outcome.content) == replies[j].body.content)
                   && (r.deliveries[j].outcome.Rejected? ==>
                         r.deliveries[j].outcome.failure == Classify(replies[j]).failure)
  {
    if |listings| == 0 then NotRequested
    else if buyersReply.code != HTTP_OK then BuyersFailed(buyersReply.code)
    else
      var buyers := buyersReply.body.content;
      Sent(seq(|buyers|, j requires 0 <= j < |buyers| => Delivery(j, Acknowledge(replies[j]))))
  }

  /** The messages sent to the buyers, one each and in list order. */
  function Mail(buyers: seq<Buyer>, listings: seq<Listing>): (m: seq<Message>)
    ensures |m| == |buyers|
    ensures forall j :: 0 <= j < |m| ==> m[j] == Notice(buyers[j], listings)
    ensures forall j :: 0 <= j < |m| ==> NoticeFor(m[j], buyers[j], listings)
  {
    NoticesLaidOut(buyers, listings);
    seq(|buyers|, j requires 0 <= j < |buyers| => Notice(buyers[j], listings))
  }

  lemma NoticesLaidOut(buyers: seq<Buyer>, listings: seq<Listing>)
    ensures forall j :: 0 <= j < |buyers| ==> NoticeFor(Notice(buyers[j], listings), buyers[j], listings)
  {
    forall j | 0 <= j < |buyers|
      ensures NoticeFor(Notice(buyers[j], listings), buyers[j], listings)
    {
      NoticeLayout(buyers[j], listings);
    }
  }

  datatype Selling = Selling(kept: seq<nat>, notification: Notification)

  /** The script. `listingReplies[i]` is what the listing service answers
      for number i. */
  function Run(
    numbers: seq<string>, template: Listing, listingReplies: seq<Reply<()>>,
    buyersReply: Reply<seq<Buyer>>, messageReplies: seq<MessageReply>): (r: Selling)
    requires |listingReplies| == |numbers|
    requires forall i :: 0 <= i < |listingReplies| ==> Readable(listingReplies[i])
    requires |Accumulate(template, listingReplies, |numbers|)| > 0 && buyersReply.code == HTTP_OK ==>
               buyersReply.body.Json? && |messageReplies| == |buyersReply.body.content|
    requires forall j :: 0 <= j < |messageReplies| ==> Readable(messageReplies[j]) && Identified(messageReplies[j])
    ensures r.kept == Accumulate(template, listingReplies, |numbers|)
    ensures r.notification == NotRequested <==> r.kept == []
    ensures r.notification ==
              Notify(DidMessages(numbers, template, r.kept), buyersReply, messageReplies)
  {
    var kept := Accumulate(template, listingReplies, |numbers|);
    Selling(kept, Notify(DidMessages(numbers, template, kept), buyersReply, messageReplies))
  }
}

=== FILE: rates.dfy ===
/** A rate row of the market-view search, shared by the carrier-relations
    and routing-strategy scripts. */
module Rates {
  import opened Api

  /** A `price_1` value: the text Python prints for it and the number
      `float(...)` reads from it. */
  datatype Quote = Quote(text: string, value: real)

  /** One entry of `rates`; every field is read with `.get`. */
  datatype Rate = Rate(
    iConnection: Option<string>,
    vendorName: Option<string>,
    connectionName: Option<string>,
    price1: Option<Quote>)

  /** `float(rate.get('price_1', '0'))`: a missing price counts as 0. */
  function Price(r: Rate): (p: real)
    ensures r.price1.None? ==> p == 0.0
    ensures r.price1.Some? ==> p == r.price1.value.value
  {
    if r.price1.Some? then r.price1.value.value else 0.0
  }
}

=== FILE: routing_strategy.dfy ===
/** generate_ai_routing_strategy.py: check the credentials, search the market
    view, order the rates from cheapest to dearest and turn them into a
    numbered summary inside the prompt for the completion service. */
module RoutingStrategy {
  import opened Api
  import opened Text
  import opened Rates

  // ---------------------------------------------------------------------
  // Least-cost order: Python's stable `sorted` keyed by price_1

  predicate SortedByPrice(s: seq<Rate>) {
    forall i, j :: 0 <= i < j < |s| ==> Price(s[i]) <= Price(s[j])
  }

  /** Inserts x into a sorted t after every rate that costs no more than x. */
  function Insert(t: seq<Rate>, x: Rate): (r: seq<Rate>)
    ensures |r| == |t| + 1
    ensures multiset(r) == multiset(t) + multiset{x}
  {
    if |t| == 0 then [x]
    else if Price(t[|t| - 1]) <= Price(x) then t + [x]
    else
      assert t == t[..|t| - 1] + [t[|t| - 1]];
      Insert(t[..|t| - 1], x) + [t[|t| - 1]]
  }

  /** `sorted(rates, key=price_1)`: insertion from the front of the list,
      each rate going after the equal-priced ones already placed. */
  function SortByPrice(s: seq<Rate>): (r: seq<Rate>)
    ensures |r| == |s|
    ensures multiset(r) == multiset(s)
  {
    if |s| == 0 then []
    else
      assert s == s[..|s| - 1] + [s[|s| - 1]];
      Insert(SortByPrice(s[..|s| - 1]), s[|s| - 1])
  }

  /** Inserting keeps every rate at or below a bound that x also respects. */
  lemma InsertBounded(t: seq<Rate>, x: Rate, b: real)
    requires forall i :: 0 <= i < |t| ==> Price(t[i]) <= b
    requires Price(x) <= b
    ensures forall i :: 0 <= i < |Insert(t, x)| ==> Price(Insert(t, x)[i]) <= b
  {
    var u := Insert(t, x);
    forall i | 0 <= i < |u|
      ensures Price(u[i]) <= b
    {
      var e := u[i];
      assert e in multiset(u);
      if e != x {
        assert e in multiset(t);
        var j :| 0 <= j < |t| && t[j] == e;
      }
    }
  }

  lemma {:induction false} InsertSorted(t: seq<Rate>, x: Rate)
    requires SortedByPrice(t)
    ensures SortedByPrice(Insert(t, x))
    decreases |t|
  {
    if |t| > 0 && Price(t[|t| - 1]) > Price(x) {
      var init := t[..|t| - 1];
      var last := t[|t| - 1];
      InsertSorted(init, x);
      InsertBounded(init, x, Price(last));
      var u := Insert(init, x);
      var r := u + [last];
      assert Insert(t, x) == r;
      forall i, j | 0 <= i < j < |r|
        ensures Price(r[i]) <= Price(r[j])
      {
        if j == |u| {
          assert r[i] == u[i];
        } else {
          assert r[i] == u[i] && r[j] == u[j];
        }
      }
    }
  }

  /** The strategy lists the rates from the lowest price to the highest. */
  lemma {:induction false} SortSorted(s: seq<Rate>)
    ensures SortedByPrice(SortByPrice(s))
  {
    if |s| > 0 {
      SortSorted(s[..|s| - 1]);
      InsertSorted(SortByPrice(s[..|s| - 1]), s[|s| - 1]);
    }
  }

  /** The rates of s at price p, in their order in s. */
  function AtPrice(s: seq<Rate>, p: real): (r: seq<Rate>)
    ensures |r| <= |s|
  {
    if |s| == 0 then []
    else AtPrice(s[..|s| - 1], p) + (if Price(s[|s| - 1]) == p then [s[|s| - 1]] else [])
  }

  lemma {:induction false} AtPriceAppend(s: seq<Rate>, x: Rate, p: real)
    ensures AtPrice(s + [x], p) == AtPrice(s, p) + (if Price(x) == p then [x] else [])
  {
    assert (s + [x])[..|s|] == s;
  }

  lemma {:induction false} InsertAtPrice(t: seq<Rate>, x: Rate, p: real)
    requires SortedByPrice(t)
    ensures AtPrice(Insert(t, x), p) == AtPrice(t, p) + (if Price(x) == p then [x] else [])
    decreases |t|
  {
    if |t| == 0 {
      assert Insert(t, x) == [] + [x];
      AtPriceAppend([], x, p);
    } else if Price(t[|t| - 1]) <= Price(x) {
      AtPriceAppend(t, x, p);
    } else {
      var init := t[..|t| - 1];
      var last := t[|t| - 1];
      assert t == init + [last];
      InsertAtPrice(init, x, p);
      AtPriceAppend(Insert(init, x), last, p);
      AtPriceAppend(init, last, p);
    }
  }

  /** Stability: the rates of any one price keep their server order. */
  lemma {:induction false} SortStable(s: seq<Rate>, p: real)
    ensures AtPrice(SortByPrice(s), p) == AtPrice(s, p)
  {
    if |s| > 0 {
      var init := s[..|s| - 1];
      var last := s[|s| - 1];
      assert s == init + [last];
      SortStable(init, p);
      SortSorted(init);
      InsertAtPrice(SortByPrice(init), last, p);
      AtPriceAppend(init, last, p);
    }
  }

  // ---------------------------------------------------------------------
  // The summary and the prompt

  /** What `f"{rate.get('price_1')}"` prints. */
  function RenderPrice(q: Option<Quote>): (s: string)
    ensures q.Some? ==> s == q.value.text
    ensures q.None? ==> s == "None"
  {
    if q.Some? then q.value.text else "None"
  }

  const ROUTE_HEAD: string := "Route "
  const VENDOR_HEAD: string := ": Vendor = "
  const CONNECTION_HEAD: string := ", Connection = "
  const PRICE_HEAD: string := ", Price = "

  /** What a summary line says about a rate after its route number. */
  function RouteTail(r: Rate): string {
    VENDOR_HEAD + Render(r.vendorName) + CONNECTION_HEAD + Render(r.connectionName)
    + PRICE_HEAD + RenderPrice(r.price1)
  }

  /** The summary line of route number i:
      `f"Route {i}: Vendor = {vendor_name}, Connection = {connection_name}, Price = {price_1}"`. */
  function RouteLine(i: nat, r: Rate): string {
    ROUTE_HEAD + Decimal(i) + RouteTail(r)
  }

  /** The line names route number i right after "Route ", in decimal and
      followed by ":", and the number can be read back from it. */
  predicate Numbered(line: string, i: nat) {
    var d := Decimal(i);
    && |line| > 6 + |d|
    && line[..6] == "Route "
    && line[6..6 + |d|] == d
    && line[6 + |d|] == ':'
    && ParseDecimal(line[6..6 + |d|]) == i
  }

  /** A summary line names its own route number. */
  lemma RouteLineNumber(i: nat, r: Rate)
    ensures Numbered(RouteLine(i, r), i)
  {
    var d := Decimal(i);
    var tail := RouteTail(r);
    assert |ROUTE_HEAD| == 6;
    assert tail[0] == ':';
    Slices3(ROUTE_HEAD, d, tail);
    DecimalRoundTrip(i);
  }

  /** One line per route, numbered from 1 in the strategy's order. */
  function RouteLines(routes: seq<Rate>): (lines: seq<string>)
    ensures |lines| == |routes|
    ensures forall k :: 0 <= k < |lines| ==> lines[k] == RouteLine(k + 1, routes[k])
    ensures forall k :: 0 <= k < |lines| ==> Numbered(lines[k], k + 1)
  {
    LinesNumbered(routes);
    seq(|routes|, k requires 0 <= k < |routes| => RouteLine(k + 1, routes[k]))
  }

  lemma LinesNumbered(routes: seq<Rate>)
    ensures forall k :: 0 <= k < |routes| ==> Numbered(RouteLine(k + 1, routes[k]), k + 1)
  {
    forall k | 0 <= k < |routes|
      ensures Numbered(RouteLine(k + 1, routes[k]), k + 1)
    {
      RouteLineNumber(k + 1, routes[k]);
    }
  }

  const PREAMBLE: string :=
    "Based on the analysis of the current rates from Telecomsxchange, please suggest an optimal routing strategy:\n\n"

  /** The prompt: the fixed preamble, then the route lines joined by "\n". */
  function Prompt(routes: seq<Rate>): string {
    PREAMBLE + JoinLines(RouteLines(routes))
  }

  /** The fields a line quotes print without a line break. */
  predicate PlainFields(r: Rate) {
    NoNewline(Render(r.vendorName)) && NoNewline(Render(r.connectionName)) && NoNewline(RenderPrice(r.price1))
  }

  lemma RouteLinePlain(i: nat, r: Rate)
    requires PlainFields(r)
    ensures NoNewline(RouteLine(i, r))
  {
    var d := Decimal(i);
    assert NoNewline(ROUTE_HEAD) && NoNewline(VENDOR_HEAD);
    assert NoNewline(CONNECTION_HEAD) && NoNewline(PRICE_HEAD);
    assert NoNewline(d);
    var v := VENDOR_HEAD + Render(r.vendorName);
    NoNewlineAppend(VENDOR_HEAD, Render(r.vendorName));
    NoNewlineAppend(v, CONNECTION_HEAD);
    NoNewlineAppend(v + CONNECTION_HEAD, Render(r.connectionName));
    NoNewlineAppend(v + CONNECTION_HEAD + Render(r.connectionName), PRICE_HEAD);
    NoNewlineAppend(v + CONNECTION_HEAD + Render(r.connectionName) + PRICE_HEAD, RenderPrice(r.price1));
    NoNewlineAppend(ROUTE_HEAD, d);
    NoNewlineAppend(ROUTE_HEAD + d, RouteTail(r));
  }

  /** The prompt is the preamble followed by the summary, and the summary
      splits back at its line breaks into one line per route, numbered from
      1 in the strategy's order (provided no quoted field holds a line break). */
  lemma PromptListsRoutes(routes: seq<Rate>)
    requires |routes| > 0
    requires forall k :: 0 <= k < |routes| ==> PlainFields(routes[k])
    ensures var p := Prompt(routes);
            && p[..|PREAMBLE|] == PREAMBLE
            && SplitLines(p[|PREAMBLE|..]) == RouteLines(routes)
            && forall k :: 0 <= k < |routes| ==> SplitLines(p[|PREAMBLE|..])[k] == RouteLine(k + 1, routes[k])
  {
    var lines := RouteLines(routes);
    forall k | 0 <= k < |lines|
      ensures NoNewline(lines[k])
    {
      RouteLinePlain(k + 1, routes[k]);
    }
    SplitJoinLines(lines);
    var p := Prompt(routes);
    assert p == PREAMBLE + JoinLines(lines);
    assert p[|PREAMBLE|..] == JoinLines(lines);
  }

  // ---------------------------------------------------------------------
  // The script

  /** The environment the script reads its credentials from. */
  datatype Env = Env(openAiKey: Option<string>, username: Option<string>, password: Option<string>)

  /** How the script ends.
      MissingApiKey, MissingCredentials: the ValueError raised before any request.
      SearchRejected: the search reply was not confirmed.
      NoRates: "No rates available." and no completion request.
      Suggest: the strategy and the prompt sent to the completion service. */
  datatype Plan =
    | MissingApiKey
    | MissingCredentials
    | SearchRejected(failure: Failure)
    | NoRates
    | Suggest(routes: seq<Rate>, prompt: string)

  /** The script. `search.body.content` is the `rates` member, `None` when
      absent; the search reply is only consulted once both credential checks
      pass. */
  function Run(env: Env, search: Reply<Option<seq<Rate>>>): (r: Plan)
    ensures r == MissingApiKey <==> env.openAiKey.None?
    ensures r == MissingCredentials <==>
              env.openAiKey.Some? && (env.username.None? || env.password.None?)
    ensures r.SearchRejected? <==>
              env.openAiKey.Some? && env.username.Some? && env.password.Some? && !Confirmed(search)
    ensures r.SearchRejected? ==> r.failure == Classify(search).failure
    ensures r == NoRates <==>
              && env.openAiKey.Some? && env.username.Some? && env.password.Some?
              && Confirmed(search) && search.body.content.GetOr([]) == []
    ensures r.Suggest? ==>
              && Confirmed(search) && search.body.content.Some?
              && r.routes == SortByPrice(search.body.content.value)
              && r.prompt == Prompt(r.routes)
  {
    if env.openAiKey.None? then MissingApiKey
    else if env.username.None? || env.password.None? then MissingCredentials
    else match Classify(search)
      case Rejected(f) => SearchRejected(f)
      case Accepted(rates) =>
        if rates.None? || rates.value == [] then NoRates
        else
          var routes := SortByPrice(rates.value);
          Suggest(routes, Prompt(routes))
  }

  /** A missing credential ends the script before the search: the outcome
      is the same whatever the search would have answered. */
  lemma GuardsPrecedeSearch(env: Env, a: Reply<Option<seq<Rate>>>, b: Reply<Option<seq<Rate>>>)
    requires env.openAiKey.None? || env.username.None? || env.password.None?
    ensures Run(env, a) == Run(env, b)
    ensures Run(env, a) == MissingApiKey || Run(env, a) == MissingCredentials
  {
  }

  /** Whenever a prompt is produced, it lists every rate of the search
      exactly once, cheapest first, ties in server order. */
  lemma SuggestedStrategy(env: Env, search: Reply<Option<seq<Rate>>>, p: real)
    requires Run(env, search).Suggest?
    ensures var routes := Run(env, search).routes;
            var rates := search.body.content.value;
            && |routes| == |rates| > 0
            && multiset(routes) == multiset(rates)
            && SortedByPrice(routes)
            && AtPrice(routes, p) == AtPrice(rates, p)
  {
    SortSorted(search.body.content.value);
    SortStable(search.body.content.value, p);
  }
}

=== FILE: text.dfy ===
/** String helpers with Python's meaning: `str.strip()`, `str(n)` for a
    natural number, `"\n".join(lines)`, and `readlines()` of a file opened
    in text mode, which reads "\r\n", "\r" and "\n" alike as a line break
    (`ReadLines`, with `LineEnd` and `AfterBreak`). */
module Text {

  /** Python's `str.isspace()` for one character: the ASCII whitespace and
      separator controls plus the Unicode space separators. */
  predicate IsSpace(c: char) {
    || c == ' ' || c == '\t' || c == '\n' || c == '\r' || c == '\U{0B}' || c == '\U{0C}'
    || ('\U{1C}' <= c <= '\U{1F}') || c == '\U{85}' || c == '\U{A0}' || c == '\U{1680}'
    || ('\U{2000}' <= c <= '\U{200A}') || c == '\U{2028}' || c == '\U{2029}'
    || c == '\U{202F}' || c == '\U{205F}' || c == '\U{3000}'
  }

  /** No whitespace at either end: what `strip()` leaves unchanged. */
  predicate Trimmed(s: string) {
    (|s| > 0 ==> !IsSpace(s[0]) && !IsSpace(s[|s| - 1]))
  }

  /** The first position at or after i that does not hold whitespace. */
  function SkipSpaces(s: string, i: nat): (j: nat)
    requires i <= |s|
    ensures i <= j <= |s|
    ensures j < |s| ==> !IsSpace(s[j])
    ensures forall k :: i <= k < j ==> IsSpace(s[k])
    decreases |s| - i
  {
    if i < |s| && IsSpace(s[i]) then SkipSpaces(s, i + 1) else i
  }

  /** The end of s[lo..j] once the whitespace ending it is dropped. */
  function BackSpaces(s: string, lo: nat, j: nat): (e: nat)
    requires lo <= j <= |s|
    ensures lo <= e <= j
    ensures e > lo ==> !IsSpace(s[e - 1])
    ensures forall k :: e <= k < j ==> IsSpace(s[k])
  {
    if j > lo && IsSpace(s[j - 1]) then BackSpaces(s, lo, j - 1) else j
  }

  /** Python's `s.strip()`: s without the whitespace at either end. The
      result is a slice of s, only whitespace lies outside it, and it has
      none at its own ends, so exactly the whitespace at the ends is cut. */
  function Strip(s: string): (r: string)
    ensures Trimmed(r)
    ensures |r| <= |s|
    ensures exists a, b :: 0 <= a <= b <= |s| && r == s[a..b]
              && (forall i :: 0 <= i < a ==> IsSpace(s[i]))
              && (forall i :: b <= i < |s| ==> IsSpace(s[i]))
  {
    var a := SkipSpaces(s, 0);
    var b := BackSpaces(s, a, |s|);
    assert forall i :: b <= i < |s| ==> IsSpace(s[i]);
    s[a..b]
  }

  /** `strip()` changes a string exactly when it has whitespace at an end. */
  lemma StripFixesExactlyTrimmed(s: string)
    ensures Strip(s) == s <==> Trimmed(s)
  {
    if Trimmed(s) && |s| > 0 {
      assert SkipSpaces(s, 0) == 0;
      assert BackSpaces(s, 0, |s|) == |s|;
      assert s[0..|s|] == s;
    }
  }

  /** Stripping twice is stripping once. */
  lemma StripIdempotent(s: string)
    ensures Strip(Strip(s)) == Strip(s)
  {
    StripFixesExactlyTrimmed(Strip(s));
  }

  lemma {:induction false} SkipSpacesNewline(s: string, i: nat)
    requires i <= |s|
    ensures SkipSpaces(s + "\n", i) ==
              if SkipSpaces(s, i) < |s| then SkipSpaces(s, i) else |s| + 1
    decreases |s| - i
  {
    var t := s + "\n";
    assert t[|s|] == '\n';
    if i < |s| {
      assert t[i] == s[i];
      if IsSpace(s[i]) {
        SkipSpacesNewline(s, i + 1);
      }
    }
  }

  lemma {:induction false} BackSpacesExtended(s: string, t: string, lo: nat, j: nat)
    requires lo <= j <= |s| <= |t|
    requires t[..|s|] == s
    ensures BackSpaces(t, lo, j) == BackSpaces(s, lo, j)
  {
    if j > lo {
      assert t[j - 1] == t[..|s|][j - 1];
      BackSpacesExtended(s, t, lo, j - 1);
    }
  }

  /** The line the dedup log gains, with its terminator stripped, is the
      stripped key: `(k + "\n").strip() == k.strip()`. */
  lemma {:induction false} StripDropsNewline(s: string)
    ensures Strip(s + "\n") == Strip(s)
  {
    var t := s + "\n";
    SkipSpacesNewline(s, 0);
    var a := SkipSpaces(s, 0);
    if a < |s| {
      assert t[..|s|] == s;
      assert t[|t| - 1] == '\n';
      assert BackSpaces(t, a, |t|) == BackSpaces(t, a, |s|);
      BackSpacesExtended(s, t, a, |s|);
      assert t[a..BackSpaces(s, a, |s|)] == s[a..BackSpaces(s, a, |s|)];
    }
  }

  function DigitChar(d: nat): (c: char)
    requires d < 10
    ensures '0' <= c <= '9'
    ensures (c as int) - ('0' as int) == d
  {
    ((d + '0' as int) as char)
  }

  /** Python's `str(n)` for a natural number: decimal digits, no leading zero. */
  function Decimal(n: nat): (s: string)
    ensures |s| > 0
    ensures forall i :: 0 <= i < |s| ==> '0' <= s[i] <= '9'
    ensures |s| > 1 ==> s[0] != '0'
    ensures n < 10 <==> |s| == 1
  {
    if n < 10 then [DigitChar(n)] else Decimal(n / 10) + [DigitChar(n % 10)]
  }

  /** Reads a string of decimal digits back as a number: `int(s)`. */
  function ParseDecimal(s: string): nat
    requires forall i :: 0 <= i < |s| ==> '0' <= s[i] <= '9'
  {
    if |s| == 0 then 0
    else 10 * ParseDecimal(s[..|s| - 1]) + ((s[|s| - 1] as int) - ('0' as int))
  }

  /** `int(str(n)) == n`, and distinct numbers print differently. */
  lemma {:induction false} DecimalRoundTrip(n: nat)
    ensures ParseDecimal(Decimal(n)) == n
  {
    if n >= 10 {
      DecimalRoundTrip(n / 10);
      var s := Decimal(n);
      var c := DigitChar(n % 10);
      assert s == Decimal(n / 10) + [c];
      assert s[..|s| - 1] == Decimal(n / 10);
      assert ParseDecimal(s) == 10 * ParseDecimal(Decimal(n / 10)) + (n % 10);
    }
  }

  lemma DecimalInjective(m: nat, n: nat)
    ensures Decimal(m) == Decimal(n) ==> m == n
  {
    DecimalRoundTrip(m);
    DecimalRoundTrip(n);
  }

  /** Python's `"\n".join(lines)`. */
  function JoinLines(lines: seq<string>): (s: string)
    ensures |lines| == 1 ==> s == lines[0]
    ensures |lines| == 0 ==> s == ""
  {
    if |lines| == 0 then ""
    else if |lines| == 1 then lines[0]
    else JoinLines(lines[..|lines| - 1]) + "\n" + lines[|lines| - 1]
  }

  /** Where the three parts of a concatenation sit. */
  lemma Slices3(a: string, b: string, c: string)
    ensures var s := a + b + c;
            && |s| == |a| + |b| + |c|
            && s[..|a|] == a
            && s[|a|..|a| + |b|] == b
            && s[|a| + |b|..] == c
  {
  }

  /** No line break anywhere in s. */
  predicate NoNewline(s: string) {
    forall i :: 0 <= i < |s| ==> s[i] != '\n'
  }

  lemma NoNewlineAppend(a: string, b: string)
    requires NoNewline(a) && NoNewline(b)
    ensures NoNewline(a + b)
  {
    forall i | 0 <= i < |a + b|
      ensures (a + b)[i] != '\n'
    {
      if i >= |a| {
        assert (a + b)[i] == b[i - |a|];
      }
    }
  }

  /** Python's `s.split("\n")`: the pieces between line breaks, always at
      least one. */
  function SplitLines(s: string): (r: seq<string>)
    ensures |r| > 0
  {
    if |s| == 0 then [""]
    else
      var init := SplitLines(s[..|s| - 1]);
      if s[|s| - 1] == '\n' then init + [""]
      else init[..|init| - 1] + [init[|init| - 1] + [s[|s| - 1]]]
  }

  lemma SplitLinesNewline(a: string)
    ensures SplitLines(a + "\n") == SplitLines(a) + [""]
  {
    assert (a + "\n")[..|a|] == a;
  }

  lemma SplitLinesSnoc(a: string, c: char)
    requires c != '\n'
    ensures var r := SplitLines(a);
            SplitLines(a + [c]) == r[..|r| - 1] + [r[|r| - 1] + [c]]
  {
    assert (a + [c])[..|a|] == a;
  }

  /** Extending the last piece by u and then by c extends it by u + [c]. */
  lemma ExtendLastTwice(r: seq<string>, ru: seq<string>, u: string, c: char)
    requires |r| > 0 && ru == r[..|r| - 1] + [r[|r| - 1] + u]
    ensures ru[..|ru| - 1] + [ru[|ru| - 1] + [c]] == r[..|r| - 1] + [r[|r| - 1] + (u + [c])]
  {
    assert ru[..|ru| - 1] == r[..|r| - 1];
    assert ru[|ru| - 1] + [c] == r[|r| - 1] + (u + [c]);
  }

  lemma SplitLinesPlainStep(a: string, u: string, c: char)
    requires c != '\n'
    requires var r := SplitLines(a);
             SplitLines(a + u) == r[..|r| - 1] + [r[|r| - 1] + u]
    ensures var r := SplitLines(a);
            SplitLines(a + (u + [c])) == r[..|r| - 1] + [r[|r| - 1] + (u + [c])]
  {
    var x := a + u;
    SplitLinesSnoc(x, c);
    ExtendLastTwice(SplitLines(a), SplitLines(x), u, c);
    assert a + (u + [c]) == x + [c];
  }

  /** Appending text without a line break extends the last piece. */
  lemma {:induction false} SplitLinesPlain(a: string, t: string)
    requires NoNewline(t)
    ensures var r := SplitLines(a);
            SplitLines(a + t) == r[..|r| - 1] + [r[|r| - 1] + t]
    decreases |t|
  {
    if |t| == 0 {
      var r := SplitLines(a);
      assert a + t == a;
      assert r[|r| - 1] + t == r[|r| - 1];
      assert r[..|r| - 1] + [r[|r| - 1] + t] == r;
    } else {
      var u := t[..|t| - 1];
      assert NoNewline(u);
      SplitLinesPlain(a, u);
      SplitLinesPlainStep(a, u, t[|t| - 1]);
      assert u + [t[|t| - 1]] == t;
    }
  }

  lemma SplitAfterJoined(init: seq<string>, last: string)
    requires |init| > 0 && SplitLines(JoinLines(init)) == init
    requires NoNewline(last)
    ensures SplitLines(JoinLines(init) + "\n" + last) == init + [last]
  {
    SplitLinesNewline(JoinLines(init));
    SplitLinesPlain(JoinLines(init) + "\n", last);
    var r := SplitLines(JoinLines(init) + "\n");
    assert r[..|r| - 1] == init && r[|r| - 1] + last == last;
  }

  /** Splitting undoes joining, for lines without line breaks of their own. */
  lemma {:induction false} SplitJoinLines(lines: seq<string>)
    requires |lines| > 0
    requires forall k :: 0 <= k < |lines| ==> NoNewline(lines[k])
    ensures SplitLines(JoinLines(lines)) == lines
  {
    if |lines| == 1 {
      SplitLinesPlain("", lines[0]);
      assert "" + lines[0] == lines[0];
    } else {
      var init := lines[..|lines| - 1];
      var last := lines[|lines| - 1];
      SplitJoinLines(init);
      SplitAfterJoined(init, last);
      assert lines == init + [last];
    }
  }

  /** The concatenation of a sequence of strings, in order. */
  function Concat(parts: seq<string>): string {
    if |parts| == 0 then "" else Concat(parts[..|parts| - 1]) + parts[|parts| - 1]
  }

  lemma StringAssoc(x: string, y: string, z: string)
    ensures (x + y) + z == x + (y + z)
  {
  }

  lemma {:induction false} ConcatAppend(a: seq<string>, b: seq<string>)
    ensures Concat(a + b) == Concat(a) + Concat(b)
    decreases |b|
  {
    if |b| == 0 {
      assert a + b == a;
    } else {
      var init := b[..|b| - 1];
      assert (a + b)[..|a + b| - 1] == a + init;
      assert (a + b)[|a + b| - 1] == b[|b| - 1];
      ConcatAppend(a, init);
      StringAssoc(Concat(a), Concat(init), b[|b| - 1]);
    }
  }

  /** The characters a file read in text mode ends a line at. */
  predicate IsLineBreak(c: char) {
    c == '\n' || c == '\r'
  }

  predicate NoLineBreak(s: string) {
    forall i :: 0 <= i < |s| ==> !IsLineBreak(s[i])
  }

  /** The first position at or after i that holds a line break, or |s|. */
  function LineEnd(s: string, i: nat): (e: nat)
    requires i <= |s|
    ensures i <= e <= |s|
    ensures e < |s| ==> IsLineBreak(s[e])
    ensures forall k :: i <= k < e ==> !IsLineBreak(s[k])
    decreases |s| - i
  {
    if i == |s| || IsLineBreak(s[i]) then i else LineEnd(s, i + 1)
  }

  /** One line as `readlines()` returns it: no line break inside, and if it
      ends in one, that is "\n". */
  predicate ReadLine(l: string) {
    && |l| > 0
    && NoLineBreak(l[..|l| - 1])
    && (IsLineBreak(l[|l| - 1]) ==> l[|l| - 1] == '\n')
  }

  /** Python's `f.readlines()` on a file opened with `open(path, 'r')`:
      universal newlines turn "\r\n" and a lone "\r" into "\n", every line
      keeps its "\n", and a last line without a break is kept as it is. */
  function ReadLines(s: string): seq<string>
    decreases |s|
  {
    if |s| == 0 then []
    else
      var e := LineEnd(s, 0);
      if e == |s| then [s]
      else [s[..e] + "\n"] + ReadLines(s[AfterBreak(s, e)..])
  }

  /** Where the line after the break at e starts: "\r\n" is one break. */
  function AfterBreak(s: string, e: nat): (next: nat)
    requires e < |s|
    ensures e < next <= |s|
  {
    if s[e] == '\r' && e + 1 < |s| && s[e + 1] == '\n' then e + 2 else e + 1
  }

  lemma ReadLinesBreak(s: string)
    requires 0 < |s| && LineEnd(s, 0) < |s|
    ensures var e := LineEnd(s, 0);
            ReadLines(s) == [s[..e] + "\n"] + ReadLines(s[AfterBreak(s, e)..])
  {
  }

  /** Every line read is a single line, and all but the last end in "\n". */
  lemma {:induction false} ReadLinesShape(s: string)
    ensures forall k :: 0 <= k < |ReadLines(s)| ==> ReadLine(ReadLines(s)[k])
    ensures forall k :: 0 <= k < |ReadLines(s)| - 1 ==> EndsLine(ReadLines(s)[k])
    decreases |s|
  {
    if |s| > 0 {
      var e := LineEnd(s, 0);
      if e == |s| {
        assert s[..|s| - 1] == s[..e][..|s| - 1];
      } else {
        ReadLinesBreak(s);
        var line := s[..e] + "\n";
        assert line[..e] == s[..e];
        ReadLinesShape(s[AfterBreak(s, e)..]);
      }
    }
  }

  /** Text that ends a line: empty, or with "\n" as its last character. */
  predicate EndsLine(s: string) {
    |s| == 0 || s[|s| - 1] == '\n'
  }

  lemma {:induction false} LineEndExtended(s: string, t: string, i: nat)
    requires i <= |s| && LineEnd(s, i) < |s|
    ensures LineEnd(s + t, i) == LineEnd(s, i)
    decreases |s| - i
  {
    assert (s + t)[i] == s[i];
    if !IsLineBreak(s[i]) {
      LineEndExtended(s, t, i + 1);
    }
  }

  /** The first break of text s ending in "\n" is found, and skipped, at
      the same place in s + t. */
  lemma BreakExtended(s: string, t: string)
    requires |s| > 0 && EndsLine(s)
    ensures LineEnd(s, 0) < |s|
    ensures LineEnd(s + t, 0) == LineEnd(s, 0)
    ensures AfterBreak(s + t, LineEnd(s, 0)) == AfterBreak(s, LineEnd(s, 0)) <= |s|
  {
    var st := s + t;
    var e := LineEnd(s, 0);
    LineEndExtended(s, t, 0);
    assert st[e] == s[e];
    if s[e] == '\r' && e + 1 < |s| {
      assert st[e + 1] == s[e + 1];
    }
  }

  /** Reading s + t starts with the first line of s, then reads the rest
      of s followed by t. */
  lemma ReadLinesBreakAppend(s: string, t: string)
    requires |s| > 0 && EndsLine(s)
    ensures LineEnd(s, 0) < |s|
    ensures var e := LineEnd(s, 0);
            ReadLines(s + t) == [s[..e] + "\n"] + ReadLines(s[AfterBreak(s, e)..] + t)
  {
    BreakExtended(s, t);
    var st := s + t;
    var e := LineEnd(s, 0);
    ReadLinesBreak(st);
    assert st[..e] == s[..e];
    assert st[AfterBreak(s, e)..] == s[AfterBreak(s, e)..] + t;
  }

  /** What follows the first line of text ending in "\n" ends in "\n"
      too (or is empty), and reads as the lines after the first. */
  lemma RestEndsLine(s: string)
    requires |s| > 0 && EndsLine(s)
    ensures LineEnd(s, 0) < |s|
    ensures var e := LineEnd(s, 0);
            && EndsLine(s[AfterBreak(s, e)..])
            && ReadLines(s) == [s[..e] + "\n"] + ReadLines(s[AfterBreak(s, e)..])
  {
    var e := LineEnd(s, 0);
    var rest := s[AfterBreak(s, e)..];
    if |rest| > 0 {
      assert rest[|rest| - 1] == s[|s| - 1];
    }
    ReadLinesBreak(s);
  }

  lemma ConsAssoc(x: string, a: seq<string>, b: seq<string>)
    ensures [x] + (a + b) == ([x] + a) + b
  {
  }

  /** Text appended after text ending in "\n" is read as lines of its own. */
  lemma {:induction false} ReadLinesAppend(s: string, t: string)
    requires EndsLine(s)
    ensures ReadLines(s + t) == ReadLines(s) + ReadLines(t)
    decreases |s|
  {
    if |s| == 0 {
      assert s + t == t;
    } else {
      ReadLinesBreakAppend(s, t);
      RestEndsLine(s);
      var e := LineEnd(s, 0);
      var rest := s[AfterBreak(s, e)..];
      ReadLinesAppend(rest, t);
      ConsAssoc(s[..e] + "\n", ReadLines(rest), ReadLines(t));
    }
  }

  /** A line without a break of its own, written with its "\n", reads back
      as exactly that one line. */
  lemma ReadLinesSingle(k: string)
    requires NoLineBreak(k)
    ensures ReadLines(k + "\n") == [k + "\n"]
  {
    var s := k + "\n";
    assert s[|k|] == '\n';
    assert forall j :: 0 <= j < |k| ==> s[j] == k[j];
    assert LineEnd(s, 0) == |k|;
    assert s[..|k|] == k;
    assert s[|k| + 1..] == "";
  }

  /** A lone "\r" ends a line as "\n" does: a line ended by it, followed by
      a non-empty line ended by "\n", reads back as those two lines. */
  lemma ReadLinesAfterCarriageReturn(a: string, b: string)
    requires NoLineBreak(a) && |b| > 0 && NoLineBreak(b)
    ensures ReadLines(a + "\r" + b + "\n") == [a + "\n", b + "\n"]
  {
    var s := a + "\r" + b + "\n";
    assert forall j :: 0 <= j < |a| ==> s[j] == a[j];
    assert s[|a|] == '\r' && s[|a| + 1] == b[0];
    assert LineEnd(s, 0) == |a|;
    assert AfterBreak(s, |a|) == |a| + 1;
    assert s[..|a|] == a;
    assert s[|a| + 1..] == b + "\n";
    ReadLinesBreak(s);
    ReadLinesSingle(b);
  }

  /** Text without a line break reads back as one unterminated line. */
  lemma ReadLinesUnterminated(k: string)
    requires |k| > 0 && NoLineBreak(k)
    ensures ReadLines(k) == [k]
  {
    assert LineEnd(k, 0) == |k|;
  }

  lemma SplitAtNewline(s: string, e: nat)
    requires e < |s| && s[e] == '\n'
    ensures s[..e] + "\n" + s[e + 1..] == s
  {
    assert s[..e + 1] == s[..e] + "\n";
    assert s == s[..e + 1] + s[e + 1..];
  }

  lemma ConcatCons(x: string, rest: seq<string>)
    ensures Concat([x] + rest) == x + Concat(rest)
  {
    ConcatAppend([x], rest);
    assert Concat([x]) == Concat([]) + x;
  }

  /** Without "\r", reading loses nothing: the lines concatenate back to the
      file's text. */
  lemma {:induction false} ReadLinesJoin(s: string)
    requires forall i :: 0 <= i < |s| ==> s[i] != '\r'
    ensures Concat(ReadLines(s)) == s
    decreases |s|
  {
    if |s| > 0 {
      var e := LineEnd(s, 0);
      if e == |s| {
        ConcatCons(s, []);
        assert [s] + [] == [s];
      } else {
        var rest := s[e + 1..];
        ReadLinesBreak(s);
        assert AfterBreak(s, e) == e + 1;
        ReadLinesJoin(rest);
        ConcatCons(s[..e] + "\n", ReadLines(rest));
        SplitAtNewline(s, e);
      }
    }
  }

  /** A line as read, once stripped, holds no line break: the "\n" that ends
      it is whitespace and goes with the strip. */
  lemma StripReadLine(l: string)
    requires ReadLine(l)
    ensures NoLineBreak(Strip(l))
  {
    var a := SkipSpaces(l, 0);
    var b := BackSpaces(l, a, |l|);
    var r := Strip(l);
    forall j | 0 <= j < |r|
      ensures !IsLineBreak(r[j])
    {
      assert r[j] == l[a + j];
      if a + j < |l| - 1 {
        assert l[..|l| - 1][a + j] == l[a + j];
      }
    }
  }
}

=== FILE: thresholds.dfy ===
/** The numeric acceptance policy of the buying script, which the
    carrier-relations price test follows too (`CarrierRelations.CheapIsBelow`):
    a field read with `.get(name, 0)` passes when it is strictly below the
    limit, and a missing field counts as 0. Values are the already-parsed
    numbers. */
module Thresholds {
  import opened Api

  /** `float(record.get(field, 0))`. */
  function Amount(v: Option<real>): real {
    v.GetOr(0.0)
  }

  predicate Below(v: Option<real>, limit: real) {
    Amount(v) < limit
  }

  /** Lowering the limit never admits more: whatever passes a lower limit
      passes every higher one, and a value fails from its own size upwards. */
  lemma BelowMonotonic(v: Option<real>, lower: real, higher: real)
    requires lower <= higher
    ensures Below(v, lower) ==> Below(v, higher)
    ensures !Below(v, higher) ==> !Below(v, lower)
  {
  }

  /** A missing field passes exactly the positive limits: the
      quirk that a record without the field is always accepted. */
  lemma MissingPassesPositiveLimit(limit: real)
    ensures Below(None, limit) <==> limit > 0.0
  {
  }

  /** A present field passes exactly when its value is below the limit. */
  lemma PresentComparesValue(x: real, limit: real)
    ensures Below(Some(x), limit) <==> x < limit
  {
  }
}

=== FILE: tickets.dfy ===
/** What the two trouble-ticket scripts share: the call detail record they
    read, the five disconnect reasons that make a call worth a ticket, and
    the random ticket number. */
module Tickets {
  import opened Api

  /** One row of `cdrs` from the call-history reply. Identifiers are held as
      the text Python's f-strings would print for them. */
  datatype Cdr = Cdr(
    callId: string,
    cld: string,
    iVendor: string,
    connectionName: string,
    connectTime: string,
    disconnectReason: Option<string>)   // read with .get: may be missing

  const DisconnectReasons: seq<string> := [
    "Service or option not available",
    "unspecified",
    "timeout",
    "Internetworking, unspecified",
    "Bearer capability not authorized"
  ]

  /** `cdr.get('disconnect_reason') in disconnect_reasons`. */
  predicate Qualifies(c: Cdr) {
    c.disconnectReason.Some? && c.disconnectReason.value in DisconnectReasons
  }

  /** A missing reason is `None`, which is not in the list of strings; a
      present one qualifies exactly when it is one of the five reasons. */
  lemma QualifiesExactly(c: Cdr)
    ensures c.disconnectReason.None? ==> !Qualifies(c)
    ensures Qualifies(c) <==>
              || c.disconnectReason == Some("Service or option not available")
              || c.disconnectReason == Some("unspecified")
              || c.disconnectReason == Some("timeout")
              || c.disconnectReason == Some("Internetworking, unspecified")
              || c.disconnectReason == Some("Bearer capability not authorized")
  {
  }

  /** `string.ascii_uppercase + string.digits`. */
  const Alphabet: string := "ABCDEFGHIJKLMNOPQRSTUVWXYZ0123456789"

  /** The length every ticket number has. */
  const TICKET_LENGTH: nat := 10

  predicate IsTicketChar(c: char) {
    'A' <= c <= 'Z' || '0' <= c <= '9'
  }

  predicate ValidTicketId(t: string, n: nat) {
    |t| == n && forall i :: 0 <= i < |t| ==> IsTicketChar(t[i])
  }

  /** A sequence of `random.choice` draws, each an index into the alphabet. */
  predicate ValidDraws(draws: seq<nat>) {
    forall i :: 0 <= i < |draws| ==> draws[i] < |Alphabet|
  }

  /** Every letter of the alphabet may appear in a ticket number. */
  lemma AlphabetHasTicketChars(i: nat)
    requires i < |Alphabet|
    ensures IsTicketChar(Alphabet[i])
  {
  }

  /** `get_random_ticket_id(n)`, with the `n` random choices given as `draws`. */
  function RandomTicketId(draws: seq<nat>): (t: string)
    requires ValidDraws(draws)
    ensures ValidTicketId(t, |draws|)
  {
    var t := seq(|draws|, i requires 0 <= i < |draws| => Alphabet[draws[i]]);
    assert forall i :: 0 <= i < |t| ==> IsTicketChar(t[i]) by {
      forall i | 0 <= i < |t|
        ensures IsTicketChar(t[i])
      {
        AlphabetHasTicketChars(draws[i]);
      }
    }
    t
  }

  function AlphabetIndex(c: char): (i: nat)
    requires IsTicketChar(c)
    ensures i < |Alphabet| && Alphabet[i] == c
  {
    if 'A' <= c <= 'Z' then (c as int) - ('A' as int) else 26 + (c as int) - ('0' as int)
  }

  /** Every string of length n over A-Z and 0-9 is a possible ticket number:
      the generator's range is exactly the valid ids. */
  lemma EveryValidIdIsDrawable(t: string)
    requires ValidTicketId(t, |t|)
    ensures exists draws :: ValidDraws(draws) && |draws| == |t| && RandomTicketId(draws) == t
  {
    var draws := seq(|t|, i requires 0 <= i < |t| => AlphabetIndex(t[i]));
    assert RandomTicketId(draws) == t;
  }

  /** Random draws for one ticket number per CDR, each of the fixed length. */
  predicate ValidTicketDraws(draws: seq<seq<nat>>) {
    forall i :: 0 <= i < |draws| ==> ValidDraws(draws[i]) && |draws[i]| == TICKET_LENGTH
  }

  /** The ticket numbers a loop over the CDRs draws, one per CDR: a CDR that
      gets a ticket gets `get_random_ticket_id(10)` from its own draws. */
  function TicketNumbers(draws: seq<seq<nat>>): (numbers: seq<string>)
    requires ValidTicketDraws(draws)
    ensures |numbers| == |draws|
    ensures forall i :: 0 <= i < |numbers| ==> ValidTicketId(numbers[i], TICKET_LENGTH)
  {
    seq(|draws|, i requires 0 <= i < |draws| => RandomTicketId(draws[i]))
  }

  const SUBJECT_HEAD: string := "Trouble Ticket #"
  const SUBJECT_MIDDLE: string := ": Call Failure to Destination: "

  /** `f"Trouble Ticket #{ticket}: Call Failure to Destination: {CLD}"`. */
  function Subject(ticket: string, cld: string): string {
    SUBJECT_HEAD + ticket + SUBJECT_MIDDLE + cld
  }

  /** The ticket number and the destination can be read back from a
      subject at fixed offsets, so two subjects differ whenever their ticket
      numbers or destinations do. */
  lemma {:induction false} SubjectReadsBack(ticket: string, cld: string)
    requires ValidTicketId(ticket, TICKET_LENGTH)
    ensures var s := Subject(ticket, cld);
            && |s| == 57 + |cld|
            && s[..16] == SUBJECT_HEAD
            && s[16..26] == ticket
            && s[26..57] == SUBJECT_MIDDLE
            && s[57..] == cld
  {
    var s := Subject(ticket, cld);
    assert s == SUBJECT_HEAD + ticket + SUBJECT_MIDDLE + cld;
    assert |SUBJECT_HEAD| == 16 && |SUBJECT_MIDDLE| == 31;
  }
}

=== FILE: trouble_tickets.dfy ===
/** automate_tt.py: one trouble ticket per CDR whose disconnect reason is
    one of the five, with no memory of earlier tickets. A send counts as
    delivered exactly when its HTTP status is 200. */
module TroubleTickets {
  import opened Api
  import opened Tickets

  /** The fixed wording of the ticket body, between the CDR fields it quotes. */
  const OPENING: string :=
    "Dear Vendor,\n\nWe are writing to inform you of a detected issue concerning the quality of service on your route "
  const ROUTE_END: string :=
    ". Our monitoring systems have identified that the call to destination number "
  const REASON_HEAD: string := " has failed.\n\nError Details:\n- Disconnect Reason: "
  const TIME_HEAD: string := "\n- Timestamp of Occurrence: "
  const CLOSING: string :=
    " UTC \n\nWe request your immediate attention and action to resolve this issue as it is affecting our service delivery."
    + " We appreciate your prompt response and solution to this matter.\n\nThank you for your cooperation."

  /** The body of the ticket. The script reads every field with `.get`; the
      model takes the quoted fields as present strings and prints a missing
      disconnect reason as "None". */
  function Letter(c: Cdr): string {
    OPENING + c.connectionName + ROUTE_END + c.cld
    + REASON_HEAD + Render(c.disconnectReason) + TIME_HEAD + c.connectTime + CLOSING
  }

  /** The send request for CDR c under ticket number `ticket`. */
  function Compose(c: Cdr, ticket: string): Message {
    Message(c.iVendor, Subject(ticket, c.cld), Letter(c))
  }

  /** A ticket sent for the CDR at position `at`, under number `number`;
      `delivered` is what the script reports for the send. */
  datatype Notice = Notice(at: nat, number: string, delivered: bool)

  /** The loop over the first n CDRs. `codes[i]` is the HTTP status the
      message service answers for a send about CDR i; the reply body is
      never read. */
  function Notify(cdrs: seq<Cdr>, numbers: seq<string>, codes: seq<int>, n: nat): (r: seq<Notice>)
    requires n <= |cdrs| == |numbers| == |codes|
    ensures |r| <= n
    ensures forall k, l :: 0 <= k < l < |r| ==> r[k].at < r[l].at
    ensures forall k :: 0 <= k < |r| ==>
              && r[k].at < n
              && Qualifies(cdrs[r[k].at])
              && r[k].number == numbers[r[k].at]
              && (r[k].delivered <==> codes[r[k].at] == HTTP_OK)
  {
    if n == 0 then []
    else
      var p := Notify(cdrs, numbers, codes, n - 1);
      if Qualifies(cdrs[n - 1]) then
        p + [Notice(n - 1, numbers[n - 1], codes[n - 1] == HTTP_OK)]
      else p
  }

  /** Every qualifying CDR among the first n gets a ticket: the filter is the
      only condition, there is no deduplication. */
  lemma {:induction false} QualifyingIsNotified(cdrs: seq<Cdr>, numbers: seq<string>, codes: seq<int>, n: nat, i: nat)
    requires i < n <= |cdrs| == |numbers| == |codes|
    requires Qualifies(cdrs[i])
    ensures exists k :: 0 <= k < |Notify(cdrs, numbers, codes, n)| && Notify(cdrs, numbers, codes, n)[k].at == i
  {
    var p := Notify(cdrs, numbers, codes, n - 1);
    var r := Notify(cdrs, numbers, codes, n);
    if i == n - 1 {
      assert r == p + [Notice(i, numbers[i], codes[i] == HTTP_OK)];
      assert r[|p|].at == i;
    } else {
      QualifyingIsNotified(cdrs, numbers, codes, n - 1, i);
      var k :| 0 <= k < |p| && p[k].at == i;
      assert r[..|p|] == p;
      assert r[k] == p[k];
    }
  }

  /** The number of tickets is the number of qualifying CDRs. */
  function CountQualifying(cdrs: seq<Cdr>, n: nat): nat
    requires n <= |cdrs|
  {
    if n == 0 then 0 else CountQualifying(cdrs, n - 1) + (if Qualifies(cdrs[n - 1]) then 1 else 0)
  }

  lemma {:induction false} NotifyCountsQualifying(cdrs: seq<Cdr>, numbers: seq<string>, codes: seq<int>, n: nat)
    requires n <= |cdrs| == |numbers| == |codes|
    ensures |Notify(cdrs, numbers, codes, n)| == CountQualifying(cdrs, n)
  {
    if n > 0 {
      NotifyCountsQualifying(cdrs, numbers, codes, n - 1);
    }
  }

  /** A qualifying CDR that appears twice gets two tickets, one per copy. */
  lemma RepeatedCdrTicketedTwice(c: Cdr, numbers: seq<string>, codes: seq<int>)
    requires |numbers| == 2 == |codes|
    requires Qualifies(c)
    ensures var r := Notify([c, c], numbers, codes, 2);
            |r| == 2 && r[0].at == 0 && r[1].at == 1
  {
    assert Notify([c, c], numbers, codes, 0) == [];
  }

  /** The message sent for each ticket goes to `str(i_vendor)` of its CDR,
      under a subject that carries its 10-character ticket number and the
      destination at fixed offsets, with that CDR's text. */
  lemma MessageReadsBack(cdrs: seq<Cdr>, numbers: seq<string>, codes: seq<int>, k: nat)
    requires |cdrs| == |numbers| == |codes|
    requires forall i :: 0 <= i < |numbers| ==> ValidTicketId(numbers[i], TICKET_LENGTH)
    requires k < |Notify(cdrs, numbers, codes, |cdrs|)|
    ensures var r := Notify(cdrs, numbers, codes, |cdrs|);
            var m := Compose(cdrs[r[k].at], r[k].number);
            var c := cdrs[r[k].at];
            && m.id == c.iVendor
            && |m.subject| == 57 + |c.cld|
            && m.subject[..16] == SUBJECT_HEAD
            && m.subject[16..26] == r[k].number
            && ValidTicketId(m.subject[16..26], TICKET_LENGTH)
            && m.subject[57..] == c.cld
            && m.text == Letter(c)
  {
    var r := Notify(cdrs, numbers, codes, |cdrs|);
    SubjectReadsBack(r[k].number, cdrs[r[k].at].cld);
  }

  /** The script: fetch the call history, then run the loop. No CDR is
      looked at unless the history reply is confirmed. */
  function Run(history: Reply<seq<Cdr>>, draws: seq<seq<nat>>, codes: seq<int>): (r: Outcome<seq<Notice>>)
    requires Confirmed(history) ==> |draws| == |codes| == |history.body.content|
    requires ValidTicketDraws(draws)
    ensures r.Accepted? <==> Confirmed(history)
    ensures r.Accepted? ==>
              r.content == Notify(history.body.content, TicketNumbers(draws), codes, |history.body.content|)
    ensures r.Rejected? ==> r.failure == Classify(history).failure
  {
    match Classify(history)
    case Rejected(f) => Rejected(f)
    case Accepted(cdrs) => Accepted(Notify(cdrs, TicketNumbers(draws), codes, |cdrs|))
  }
}
